=== FILE: README.md ===
# DXHistApp chart properties dialog — a Dafny model

DXHistApp is a WPF histogram viewer built on the DevExpress chart control.
Its chart properties dialog does three things, and this project models all of them:

- **Catalog.** It walks the chart's configuration graph in a fixed order: the chart, the XY diagram, the X axis, the X scale options, three synthetic "Histogram" entries, the Y axis, the Y scale options, then each series. It creates each of these structural nodes that is null when the walk reaches it: the chart's own entries are read before a missing diagram is created, the X axis's entries before missing X scale options are created, and a missing Y axis is created only after the "Histogram" entries. It lists every readable and writable property of a supported type as an entry.
- **Category index.** It groups the entries by category name, in ascending key order. Within each category the rows are sorted by short name. Each category gets a header of the form "<name> (<n> properties)". Only "Histogram" and "Scale Options" start expanded.
- **Staged edits.** Each row keeps an editor value next to the value it cached. Apply converts every changed row by its declared type and writes it back into the graph. A row that fails reports false and changes nothing. The batch counts the rows written and then asks the chart to refresh.

## Representation choices

- **Reflection.** It is replaced by a field-descriptor table on each node of the graph (`ChartGraph.Node`), giving each property's name, type, readability, writability and description. Current values live in a map. A name missing from the map is a getter that throws.
- **Configuration graph.** The graph is an immutable tree: `ChartGraph.Chart` with `Option` fields for the diagram, the axes and their scale options. A `NodeRef` names the target of an entry.
- **Runtime types.** `Clr.ClrType` stands for the CLR types. `Clr.Value` is a boxed value.
- **Doubles.** `double` and `float` are opaque codes.
- **Conversions.** Culture-dependent text parsing (`Convert.ToInt32(string)` and the like) is an uninterpreted field of `Clr.Conversions`. The `Int32` range check is explicit. Conversions of `null` follow .NET, so `Convert.ToInt32(null)` is 0.
- **Setters.** `PropertyInfo.SetValue` stores `default(T)` when given null for a non-nullable value type. A setter of the charting library that throws is the `SetterPolicy` veto.
- **Sorting.** LINQ's `OrderBy` is modelled as a stable insertion sort on the ordinal string order.

## Behaviour worth noting

- The walk lists the Y axis and its scale options before the series.
- A category starts expanded only when its name is exactly "Histogram" or "Scale Options"; a name that merely contains one of these words starts collapsed.
- Nothing validates the bin count or the underflow and overflow thresholds before they are written.
- Clearing the text of a nullable numeric row does not clear the field: the empty text fails to convert, so the row reports false (`PropertyEditors.EmptyTextIsRejected`).
- The walk visits only the primary X and Y axes, and it lists every series.

## Model

| member | source | states |
|---|---|---|
| Clr.IsEditable | DXHistApp/ViewModels/ChartPropertiesViewModel.cs:175-186 | a type is eligible iff it is string, int, double, float or bool, the nullable form of one of them, an enum or a nullable enum; eligible types are exactly the well-formed types whose underlying type has an editor kind |
| Clr.UnderlyingType | DXHistApp/ViewModels/ChartPropertyViewModel.cs:23 | strips exactly one `Nullable<>` layer: the result is the type itself or its nullable argument, and never itself nullable for a well-formed type |
| Catalog.Describe | DXHistApp/ViewModels/ChartPropertiesViewModel.cs:188-195 | the description is the field's Description attribute when present and non-empty, otherwise "<field> property"; never empty |
| Catalog.AddObjectProperties | DXHistApp/ViewModels/ChartPropertiesViewModel.cs:132-158 | a null target gives no entries; otherwise every entry comes from a readable, writable, eligible field whose getter succeeds, and every such field gives its entry "<prefix> - <field>" in the given category, caching the getter's value |
| Catalog.ThrowingGetterSkipsOnlyItsField | DXHistApp/ViewModels/ChartPropertiesViewModel.cs:140-157 | a field whose getter throws is skipped and every other field's entry is still produced, in the same order |
| Catalog.OneEntryPerField | DXHistApp/ViewModels/ChartPropertiesViewModel.cs:136-154 | with distinct property names, no field gives two entries |
| Catalog.HistogramEntries | DXHistApp/ViewModels/ChartPropertiesViewModel.cs:97-110 | count-interval X scale options give exactly "Bin Count" (int, caching `Count ?? 15`), "Underflow Value" and "Overflow Value" (`double?`, caching the scale options' current values), with their three fixed descriptions, all in "Histogram" and aimed at the X scale options, each built as `AddSpecialProperty` builds it; any other scale options give none |
| Catalog.DefaultBinCount | DXHistApp/ViewModels/ChartPropertiesViewModel.cs:90-92 | the Count of new X scale options is the point count of series 0 when it exists and has points, otherwise 10; always positive |
| Catalog.EnsureStructure | DXHistApp/ViewModels/ChartPropertiesViewModel.cs:72-119 | after lazy initialisation every structural node exists; existing nodes and values are kept; a complete graph or a non-XY diagram is returned unchanged |
| Catalog.NewXScaleIsHistogram | DXHistApp/ViewModels/ChartPropertiesViewModel.cs:86-93 | X scale options created by the build are count-interval with aggregate function Histogram and the default bin count |
| Catalog.CollectChartProperties | DXHistApp/ViewModels/ChartPropertiesViewModel.cs:67-130 | the built graph is complete and extends the input; every entry has an eligible type, points at an existing node and is filed under one of the six walk categories; every reflected entry is filed under its node's category and caches what its field holds; conversely every emitting field of the chart, the XY diagram, both axes, both scale options and every series is listed, under its walk category and "<prefix> - <field>" name |
| Catalog.ChartCategoryIsChartControl | DXHistApp/ViewModels/ChartPropertiesViewModel.cs:70 | the "Chart" category of a built catalog is exactly the chart control's reflected entries, prefixed "Chart Control" |
| Catalog.DiagramCategoryIsDiagram | DXHistApp/ViewModels/ChartPropertiesViewModel.cs:72-78 | with no diagram or an XY diagram, the "Diagram" category is exactly the reflected entries of the (given or created) XY diagram, prefixed "XY Diagram" |
| Catalog.SeriesCategoryIsSeries | DXHistApp/ViewModels/ChartPropertiesViewModel.cs:123-128 | the "Series" category of a built catalog is exactly the per-series entries of the given series, in series order |
| Catalog.RebuildIsIdempotent | DXHistApp/ViewModels/ChartPropertiesViewModel.cs:72-119 | a second build creates nothing and lists the same entries |
| Catalog.OtherDiagramYieldsChartEntriesOnly | DXHistApp/ViewModels/ChartPropertiesViewModel.cs:73-76 | a diagram that is not an XY diagram is left in place and only the chart-level entries are listed |
| Catalog.HistogramCategoryIsSynthetic | DXHistApp/ViewModels/ChartPropertiesViewModel.cs:97-110 | the "Histogram" category of a built catalog holds exactly the synthetic entries: three for count-interval X scale options, none otherwise |
| Catalog.AxesInWalkOrder | DXHistApp/ViewModels/ChartPropertiesViewModel.cs:80-121 | with no diagram or an XY diagram, the "Axes" category of a built catalog is the X axis's entries followed by the Y axis's, and nothing else |
| Catalog.ScaleOptionsInWalkOrder | DXHistApp/ViewModels/ChartPropertiesViewModel.cs:95-121 | with no diagram or an XY diagram, the "Scale Options" category of a built catalog is the X scale options' entries followed by the Y scale options', and nothing else |
| Catalog.SeriesEntries | DXHistApp/ViewModels/ChartPropertiesViewModel.cs:123-128 | every series entry is the entry of a readable, writable, eligible field of some series whose getter succeeds, filed in "Series", caching that field's value and named "Series <i+1> (<type>) - <field>"; conversely every such field of every series gives its entry |
| Catalog.SeriesEntriesInSeriesOrder | DXHistApp/ViewModels/ChartPropertiesViewModel.cs:124-128 | the series entries are listed series by series, in the diagram's series order |
| Catalog.OneEntryPerSeriesField | DXHistApp/ViewModels/ChartPropertiesViewModel.cs:124-128 | with distinct property names in each series, no field of any series is listed twice |
| ChartGraph.SetField | DXHistApp/ViewModels/ChartPropertyViewModel.cs:46 | a write succeeds iff the target exists, has the writable field, the field's type accepts the value and the setter does not object; on success exactly that field changes, to the value reflection stores, and the graph's shape is kept |
| ChartPropertyModel.InCategory | DXHistApp/ViewModels/ChartPropertiesViewModel.cs:49-50 | the group of a key holds exactly the entries of that category, in catalog order |
| PropertyEditors.NewEditor | DXHistApp/ViewModels/ChartPropertyViewModel.cs:12-16 | a new row's editor value is the cached value, so it has not changed |
| PropertyEditors.HasChanged | DXHistApp/ViewModels/ChartPropertyViewModel.cs:37 | a row has changed iff its editor value differs from its cached value |
| PropertyEditors.ObjectEquals | DXHistApp/ViewModels/ChartPropertyViewModel.cs:37 | `Equals` on boxed values is value equality, with two nulls equal |
| PropertyEditors.SetEditorValue | DXHistApp/ViewModels/ChartPropertyViewModel.cs:25-37 | after an edit the row has changed iff the new editor value differs from the cached value |
| PropertyEditors.ShortName | DXHistApp/ViewModels/ChartPropertyViewModel.cs:18 | the short name contains no '-', is trimmed, and is a slice of the full name lying after its last '-' with only white space between it and that '-' and between it and the end |
| PropertyEditors.ShortNameIsCharacterized | DXHistApp/ViewModels/ChartPropertyViewModel.cs:18 | the short name is the only trimmed text that stands after the last '-' with only white space around it |
| PropertyEditors.ShortNameOfPlain | DXHistApp/ViewModels/ChartPropertyViewModel.cs:18 | a trimmed name with no '-', such as "Bin Count", is its own short name |
| PropertyEditors.ShortNameOfQualified | DXHistApp/ViewModels/ChartPropertyViewModel.cs:18 | the short name of "<prefix> - <field>" is the field name, whatever the prefix contains |
| PropertyEditors.ExactlyOneEditorTemplate | DXHistApp/ViewModels/ChartPropertyViewModel.cs:31-33 | exactly one of IsBoolean, IsEnum and IsText holds |
| PropertyEditors.EnumValues | DXHistApp/ViewModels/ChartPropertyViewModel.cs:35 | the member list exists iff the row is an enum (or nullable enum), and is then the enum's members as values, in the order `Enum.GetValues` returns them (ascending unsigned underlying value) |
| PropertyEditors.ChosenEnumValueIsWritable | DXHistApp/ViewModels/ChartPropertyViewModel.cs:35 | any value picked from the member list converts to itself and is accepted by the field's type |
| PropertyEditors.ConvertValue | DXHistApp/ViewModels/ChartPropertyViewModel.cs:56-73 | null against a generic type stays null; otherwise an int, double, float or bool underlying type gives exactly the result of `Convert.ToInt32`, `ToDouble`, `ToSingle` or `ToBoolean`, a value of that type or a failure; other types pass the value through; a value already of the underlying type passes through |
| PropertyEditors.TypedIntegerIsParsed | DXHistApp/ViewModels/ChartPropertyViewModel.cs:63-64 | text on an int or `int?` row converts to n iff the culture's parser reads n and n is in the 32-bit range |
| Clr.ToInt32 | DXHistApp/ViewModels/ChartPropertyViewModel.cs:63-64 | null gives 0, an int passes through, text converts iff it parses to a 32-bit integer and then to that integer, a bool gives 1 or 0, an enum member gives its underlying value when in range |
| Clr.ToBoolean | DXHistApp/ViewModels/ChartPropertyViewModel.cs:69-70 | null gives false, a bool passes through, text gives true iff it reads "True" and false iff it reads "False" (any letter case) once white space and U+0000 are stripped from both ends, an int gives true iff non-zero |
| Clr.ParseBooleanIgnoresPadding | DXHistApp/ViewModels/ChartPropertyViewModel.cs:69-70 | padding text with white space and U+0000 on either side does not change what `bool.Parse` reads, so "True\0" reads as true |
| PropertyEditors.ConvertValueIdempotent | DXHistApp/ViewModels/ChartPropertyViewModel.cs:56-73 | converting a converted value again returns it unchanged |
| PropertyEditors.ApplyChanges | DXHistApp/ViewModels/ChartPropertyViewModel.cs:39-54 | an unchanged row returns false and touches nothing; otherwise it returns true iff the value converts and the setter accepts it, and then the field and the cache both take the converted value; on false nothing changes |
| PropertyEditors.AppliedValueIsInField | DXHistApp/ViewModels/ChartPropertyViewModel.cs:45-47 | after a successful apply the target field holds the converted value as reflection stores it |
| PropertyEditors.ReapplyOfConvertedValueIsNoOp | DXHistApp/ViewModels/ChartPropertyViewModel.cs:37-48 | when conversion leaves the editor value unchanged, a second apply returns false and writes nothing |
| PropertyEditors.TextEditIsReappliedEveryTime | DXHistApp/ViewModels/ChartPropertyViewModel.cs:37-48 | a number typed as text stays changed after it is applied, so every later apply writes it again and returns true |
| PropertyEditors.EmptyTextIsRejected | DXHistApp/ViewModels/ChartPropertyViewModel.cs:45-53 | empty text on a numeric or boolean row fails to convert: the row returns false and nothing is written |
| PropertyEditors.NullClearsNullableEntry | DXHistApp/ViewModels/ChartPropertyViewModel.cs:58-59 | null on a nullable row is written as null |
| PropertyEditors.NullOnIntEntryWritesZero | DXHistApp/ViewModels/ChartPropertyViewModel.cs:63-64 | null on a plain int row writes 0 |
| Sorting.SortBy | DXHistApp/ViewModels/ChartPropertiesViewModel.cs:233-234 | the sorted rows are a permutation of the input, ordered by key |
| Sorting.SortByIsStable | DXHistApp/ViewModels/ChartPropertiesViewModel.cs:233-234 | rows with equal keys keep their input order |
| Categories.NewCategory | DXHistApp/ViewModels/ChartPropertiesViewModel.cs:230-236 | a category holds a new unchanged row for each of its entries, sorted by short name, under the header "<name> (<n> properties)"; it starts collapsed |
| Categories.CategoryRowsAreStable | DXHistApp/ViewModels/ChartPropertiesViewModel.cs:233-234 | rows with the same short name keep their catalog order |
| Categories.HeaderDeterminesCount | DXHistApp/ViewModels/ChartPropertiesViewModel.cs:235 | two headers of one category are equal only for equal row counts |
| Categories.SortedKeys | DXHistApp/ViewModels/ChartPropertiesViewModel.cs:49-51 | the keys are strictly ascending and are exactly the category names that occur |
| Categories.LoadProperties | DXHistApp/ViewModels/ChartPropertiesViewModel.cs:44-65 | one non-empty category per distinct category name, in strictly ascending order; each holds exactly the entries of its name as fresh rows sorted by short name, rows with one short name in catalog order, under the right header; expanded iff the name is "Histogram" or "Scale Options" |
| Categories.LoadPropertiesIsPermutation | DXHistApp/ViewModels/ChartPropertiesViewModel.cs:49-53 | the rows of all categories together are a permutation of the catalog: grouping loses and duplicates nothing |
| Commit.CommitEditors | DXHistApp/ViewModels/ChartPropertiesViewModel.cs:203-212 | committing rows in order: row i is written iff it would be on the graph's shape; unwritten rows are unchanged, written rows cache their converted value; the shape is kept; with no writes the graph is unchanged |
| Commit.CommitJoin | DXHistApp/ViewModels/ChartPropertiesViewModel.cs:203-212 | committing two lists of rows one after the other is committing their concatenation |
| Commit.CommitCount | DXHistApp/ViewModels/ChartPropertiesViewModel.cs:201-212 | the number of rows written is the number that would be written, and at most the number changed |
| Commit.LastWriterWins | DXHistApp/ViewModels/ChartPropertiesViewModel.cs:203-212 | after a commit each field holds what the last row written to it stored, and a field no row wrote keeps its value |
| Commit.RecommitRewritesOnlyConvertedRows | DXHistApp/ViewModels/ChartPropertiesViewModel.cs:197-214 | a second Apply writes a row only if the first wrote it and its conversion changed the editor value |
| Commit.CommitCategories | DXHistApp/ViewModels/ChartPropertiesViewModel.cs:203-212 | the nested loop over categories and rows equals the flat commit of all rows, and keeps each category's name, header and expansion |
| Commit.ApplyAllChanges | DXHistApp/ViewModels/ChartPropertiesViewModel.cs:197-214 | the resulting graph and rows are those of committing all rows in order, and the count is the number of those commits that returned true; the reported count is the number of changed rows that convert and whose setter accepts them; the graph keeps its shape, is unchanged when the count is 0, and a refresh is requested |
| Commit.FreshSheetAppliesNothing | DXHistApp/ViewModels/ChartPropertiesViewModel.cs:197-214 | Apply on a freshly loaded dialog writes nothing and reports 0 |
| Text.DecimalRoundTrip | DXHistApp/ViewModels/ChartPropertiesViewModel.cs:235 | the decimal text in series prefixes and headers reads back as the number it prints |
| Text.Trim | DXHistApp/ViewModels/ChartPropertyViewModel.cs:18 | the result is the input with the leading and trailing white space removed, and neither end is white space |
| Text.AfterLast | DXHistApp/ViewModels/ChartPropertyViewModel.cs:18 | the last piece of a split on '-' is the longest suffix without '-', preceded by '-' when shorter than the whole |

## Left out

- The dialog and window code (`DialogService`, `ChartPropertiesWindow`, `MainWindow`): user interface only.
- `MainViewModel` and `PropertyEditorTemplateSelector`. The selector's choice is fully determined by `IsBoolean` and `IsEnum`, which are modelled.
- `ChartService`: `UpdateChart` is kept only as the `refreshRequested` flag. The information and error messages shown after Apply are left out.
- The outer `try`/`catch` of Apply: every per-row failure is caught inside the row, and the refresh itself is not modelled.
- Reflection, the `DescriptionAttribute` lookup and DevExpress object internals: replaced by the field-descriptor table, with throwing getters as missing map keys.
- Culture-dependent number parsing and all float arithmetic: left uninterpreted in `Clr.Conversions`.
- Reflection's widening of primitive arguments in `SetValue`: a write must match the declared type exactly or be null.
- Categories.LoadProperties: it orders keys and short names by ordinal comparison, whereas LINQ's `OrderBy` on strings uses the current culture's comparison.
- Catalog.HistogramEntries: `Count`, `UnderflowValue` and `OverflowValue` are read directly, and a missing value is taken as null rather than as a getter that throws.
- Catalog.EnsureStructure: the nodes it creates, and the underlying value of `AggregateFunction.Histogram`, are supplied as `Catalog.Defaults` rather than built by DevExpress constructors.
- Catalog.CollectChartProperties: the model creates every missing structural node before the walk, whereas the code creates each one when the walk reaches it. The two read the same values only because creating a node leaves every other node's values as they were.
- ChartGraph.SetField: the setter veto (`SetterPolicy`) sees only the target reference, the field and the value to store, never the graph's current values, so "a write succeeds or fails depending on the graph's shape only" holds by construction; a DevExpress setter that checks sibling values (an underflow above the overflow, say) is not modelled. A setter that succeeds is also assumed to store exactly what reflection hands it (`StoredValue`) and to change no other property: a library setter that coerces the value or updates dependent properties is not modelled, and `Commit.LastWriterWins` and `PropertyEditors.AppliedValueIsInField` rest on this assumption.
- Commit.CommitEditors: inherits that restriction of the setter veto, so which rows are written depends only on the graph's shape; the same holds for `Commit.CommitCount` and `Commit.ApplyAllChanges`.
- Series point data: only the point count of series 0 is represented, since that is all the dialog reads.

=== FILE: catalog.dfy ===
/**
  The catalog builder of the chart properties dialog: a fixed walk over the
  configuration graph (chart, diagram, X axis, X scale options, the
  synthetic histogram entries, Y axis, Y scale options, each series) that
  emits one entry per readable, writable field of a supported type. The
  walk creates each structural node that is null when it reaches it; the
  model creates them all before the walk, which reads the same values
  because creating a node leaves every other node as it was.
*/
module Catalog {
  import opened Optional
  import opened Text
  import opened Clr
  import opened ChartGraph
  import opened ChartPropertyModel

  const ChartCategory := "Chart"
  const DiagramCategory := "Diagram"
  const AxesCategory := "Axes"
  const ScaleOptionsCategory := "Scale Options"
  const HistogramCategory := "Histogram"
  const SeriesCategory := "Series"

  const CountField := "Count"
  const UnderflowField := "UnderflowValue"
  const OverflowField := "OverflowValue"
  const AggregateFunctionField := "AggregateFunction"
  const AggregateFunctionEnum := "AggregateFunction"

  /** Bin count shown when the count-interval options hold a null `Count`. */
  const FallbackBinCount := 15
  /** Bin count of freshly created X scale options when there is no data to size them by. */
  const EmptyDataBinCount := 10

  /** The reflection filter: `CanRead && CanWrite && IsEditableProperty(p)`. */
  predicate Eligible(fd: FieldDescriptor) {
    fd.canRead && fd.canWrite && IsEditable(fd.fieldType)
  }

  /** A field that yields an entry: it is eligible and its getter returns. */
  predicate Emits(n: Node, fd: FieldDescriptor) {
    Eligible(fd) && fd.name in n.values
  }

  /** `GetPropertyDescription`: the `[Description]` text when there is a non-empty one, else "<name> property". */
  function Describe(fd: FieldDescriptor): (r: string)
    ensures |r| > 0
    ensures fd.description.Some? && fd.description.value != "" ==> r == fd.description.value
    ensures fd.description.None? || fd.description.value == "" ==> r == fd.name + " property"
  {
    if fd.description.Some? && fd.description.value != "" then fd.description.value else fd.name + " property"
  }

  /** The entry a reflected field produces. */
  function EntryFor(r: NodeRef, n: Node, fd: FieldDescriptor, category: string, prefix: string): ChartProperty
    requires fd.name in n.values
  {
    ChartProperty(prefix + " - " + fd.name, category, n.values[fd.name], fd.fieldType, r, fd.name, Describe(fd))
  }

  function ReflectFields(r: NodeRef, n: Node, table: seq<FieldDescriptor>, category: string, prefix: string): (es: seq<ChartProperty>)
    ensures |es| <= |table|
    ensures forall e :: e in es ==> exists fd :: fd in table && Emits(n, fd) && e == EntryFor(r, n, fd, category, prefix)
    ensures forall fd :: fd in table && Emits(n, fd) ==> EntryFor(r, n, fd, category, prefix) in es
  {
    if |table| == 0 then []
    else
      var rest := ReflectFields(r, n, table[1..], category, prefix);
      var fd := table[0];
      assert forall d :: d in table[1..] ==> d in table;
      if Emits(n, fd) then [EntryFor(r, n, fd, category, prefix)] + rest else rest
  }

  /**
    `AddObjectProperties`: a null target contributes nothing; otherwise the
    entries are exactly those of the eligible fields whose getters return,
    each named "<prefix> - <field>", in the given category, caching the
    value the getter returned.
  */
  function AddObjectProperties(r: NodeRef, node: Option<Node>, category: string, prefix: string): (es: seq<ChartProperty>)
    ensures node.None? ==> es == []
    ensures node.Some? ==> |es| <= |node.value.table|
    ensures node.Some? ==> forall e :: e in es ==>
      exists fd :: fd in node.value.table && Emits(node.value, fd) && e == EntryFor(r, node.value, fd, category, prefix)
    ensures node.Some? ==> forall fd :: fd in node.value.table && Emits(node.value, fd) ==>
      EntryFor(r, node.value, fd, category, prefix) in es
    ensures forall e :: e in es ==> e.category == category && e.target == r && IsEditable(e.propertyType)
    ensures forall e :: e in es ==> node.Some? && e.field in node.value.values && e.value == node.value.values[e.field]
  {
    if node.None? then [] else ReflectFields(r, node.value, node.value.table, category, prefix)
  }

  /** `es` without the entries of one field. */
  function WithoutField(es: seq<ChartProperty>, f: string): seq<ChartProperty> {
    if |es| == 0 then [] else (if es[0].field == f then [] else [es[0]]) + WithoutField(es[1..], f)
  }

  lemma {:induction false} ReflectWithoutField(r: NodeRef, n: Node, table: seq<FieldDescriptor>, f: string, category: string, prefix: string)
    ensures ReflectFields(r, n.(values := n.values - {f}), table, category, prefix)
      == WithoutField(ReflectFields(r, n, table, category, prefix), f)
  {
    if |table| > 0 {
      var fd := table[0];
      var rest := ReflectFields(r, n, table[1..], category, prefix);
      ReflectWithoutField(r, n, table[1..], f, category, prefix);
      if Emits(n, fd) {
        var x := EntryFor(r, n, fd, category, prefix);
        assert ReflectFields(r, n, table, category, prefix) == [x] + rest;
        WithoutFieldCons(x, rest, f);
        if fd.name != f {
          assert EntryFor(r, n.(values := n.values - {f}), fd, category, prefix) == x;
        }
      }
    }
  }

  lemma WithoutFieldCons(x: ChartProperty, rest: seq<ChartProperty>, f: string)
    ensures WithoutField([x] + rest, f) == (if x.field == f then [] else [x]) + WithoutField(rest, f)
  {
    assert ([x] + rest)[1..] == rest;
  }

  /**
    A field whose getter throws is skipped and nothing else changes: the
    entries of every other field are exactly those produced when the getter
    works.
  */
  lemma ThrowingGetterSkipsOnlyItsField(r: NodeRef, n: Node, f: string, category: string, prefix: string)
    ensures AddObjectProperties(r, Some(n.(values := n.values - {f})), category, prefix)
      == WithoutField(AddObjectProperties(r, Some(n), category, prefix), f)
  {
    ReflectWithoutField(r, n, n.table, f, category, prefix);
  }

  predicate DistinctNames(table: seq<FieldDescriptor>) {
    forall i, j :: 0 <= i < j < |table| ==> table[i].name != table[j].name
  }

  predicate DistinctFields(es: seq<ChartProperty>) {
    forall i, j :: 0 <= i < j < |es| ==> es[i].field != es[j].field
  }

  lemma {:induction false} ReflectFieldsInTable(r: NodeRef, n: Node, table: seq<FieldDescriptor>, category: string, prefix: string, e: ChartProperty)
    requires e in ReflectFields(r, n, table, category, prefix)
    ensures exists fd :: fd in table && fd.name == e.field
  {
  }

  lemma {:induction false} ReflectFieldsDistinct(r: NodeRef, n: Node, table: seq<FieldDescriptor>, category: string, prefix: string)
    requires DistinctNames(table)
    ensures DistinctFields(ReflectFields(r, n, table, category, prefix))
  {
    if |table| > 0 {
      var rest := ReflectFields(r, n, table[1..], category, prefix);
      ReflectFieldsDistinct(r, n, table[1..], category, prefix);
      if Emits(n, table[0]) {
        RestAvoidsHead(r, n, table, category, prefix);
        DistinctFieldsCons(EntryFor(r, n, table[0], category, prefix), rest);
      }
    }
  }

  lemma RestAvoidsHead(r: NodeRef, n: Node, table: seq<FieldDescriptor>, category: string, prefix: string)
    requires DistinctNames(table) && 0 < |table|
    ensures forall e :: e in ReflectFields(r, n, table[1..], category, prefix) ==> e.field != table[0].name
  {
    forall e | e in ReflectFields(r, n, table[1..], category, prefix)
      ensures e.field != table[0].name
    {
      ReflectFieldsInTable(r, n, table[1..], category, prefix, e);
      var fd :| fd in table[1..] && fd.name == e.field;
      var k :| 0 <= k < |table[1..]| && table[1..][k] == fd;
      assert table[k + 1] == fd;
    }
  }

  lemma DistinctFieldsCons(x: ChartProperty, rest: seq<ChartProperty>)
    requires DistinctFields(rest)
    requires forall e :: e in rest ==> e.field != x.field
    ensures DistinctFields([x] + rest)
  {
    var es := [x] + rest;
    forall i, j | 0 <= i < j < |es|
      ensures es[i].field != es[j].field
    {
      assert es[j] == rest[j - 1];
      if i == 0 {
        assert rest[j - 1] in rest;
      } else {
        assert es[i] == rest[i - 1];
      }
    }
  }

  /**
    With a property table whose names are distinct, every eligible field
    whose getter returns yields exactly one entry: the entries name pairwise
    different fields.
  */
  lemma OneEntryPerField(r: NodeRef, n: Node, category: string, prefix: string)
    requires DistinctNames(n.table)
    ensures DistinctFields(AddObjectProperties(r, Some(n), category, prefix))
  {
    assert AddObjectProperties(r, Some(n), category, prefix) == ReflectFields(r, n, n.table, category, prefix);
    ReflectFieldsDistinct(r, n, n.table, category, prefix);
  }

  function SeriesPrefix(i: nat, typeName: string): string {
    "Series " + Decimal(i + 1) + " (" + typeName + ")"
  }

  /**
    The per-series part of the walk, from series `from` on: every emitting
    field of every such series gives its entry, named
    "Series <i+1> (<type>) - <field>", and nothing else is listed.
  */
  function SeriesEntries(ss: seq<Series>, from: nat): (es: seq<ChartProperty>)
    decreases |ss| - from
    ensures forall e :: e in es ==> exists i, fd ::
      && from <= i < |ss| && fd in ss[i].node.table && Emits(ss[i].node, fd)
      && e == EntryFor(SeriesRef(i), ss[i].node, fd, SeriesCategory, SeriesPrefix(i, ss[i].node.typeName))
    ensures forall e :: e in es ==>
      && e.category == SeriesCategory && IsEditable(e.propertyType)
      && e.target.SeriesRef? && from <= e.target.index < |ss|
      && e.field in ss[e.target.index].node.values && e.value == ss[e.target.index].node.values[e.field]
      && e.name == SeriesPrefix(e.target.index, ss[e.target.index].node.typeName) + " - " + e.field
    ensures forall i, fd :: from <= i < |ss| && fd in ss[i].node.table && Emits(ss[i].node, fd) ==>
      EntryFor(SeriesRef(i), ss[i].node, fd, SeriesCategory, SeriesPrefix(i, ss[i].node.typeName)) in es
  {
    if from >= |ss| then []
    else
      AddObjectProperties(SeriesRef(from), Some(ss[from].node), SeriesCategory, SeriesPrefix(from, ss[from].node.typeName))
      + SeriesEntries(ss, from + 1)
  }

  /** Entries listed series by series: an entry of a later series never precedes one of an earlier series. */
  predicate InSeriesOrder(es: seq<ChartProperty>) {
    forall a, b :: 0 <= a < b < |es| && es[a].target.SeriesRef? && es[b].target.SeriesRef? ==>
      es[a].target.index <= es[b].target.index
  }

  /** No node field is listed twice. */
  predicate DistinctTargetFields(es: seq<ChartProperty>) {
    forall a, b :: 0 <= a < b < |es| ==> es[a].target != es[b].target || es[a].field != es[b].field
  }

  /** The series part lists the series in their order in the diagram. */
  lemma {:induction false} SeriesEntriesInSeriesOrder(ss: seq<Series>, from: nat)
    decreases |ss| - from
    ensures InSeriesOrder(SeriesEntries(ss, from))
  {
    if from < |ss| {
      var head := AddObjectProperties(SeriesRef(from), Some(ss[from].node), SeriesCategory, SeriesPrefix(from, ss[from].node.typeName));
      var rest := SeriesEntries(ss, from + 1);
      SeriesEntriesInSeriesOrder(ss, from + 1);
      JoinInSeriesOrder(head, rest, from);
    }
  }

  lemma JoinInSeriesOrder(head: seq<ChartProperty>, rest: seq<ChartProperty>, i: nat)
    requires forall e :: e in head ==> e.target == SeriesRef(i)
    requires forall e :: e in rest ==> e.target.SeriesRef? && i < e.target.index
    requires InSeriesOrder(rest)
    ensures InSeriesOrder(head + rest)
  {
    var es := head + rest;
    forall a, b | 0 <= a < b < |es| && es[a].target.SeriesRef? && es[b].target.SeriesRef?
      ensures es[a].target.index <= es[b].target.index
    {
      if b < |head| {
        assert es[a] == head[a] && es[b] == head[b];
        assert head[a] in head && head[b] in head;
      } else if a < |head| {
        assert es[a] == head[a] && es[b] == rest[b - |head|];
        assert head[a] in head && rest[b - |head|] in rest;
      } else {
        assert es[a] == rest[a - |head|] && es[b] == rest[b - |head|];
      }
    }
  }

  /**
    With distinct property names in every series' table, the series part
    lists each field of each series at most once.
  */
  lemma {:induction false} OneEntryPerSeriesField(ss: seq<Series>, from: nat)
    requires forall i :: 0 <= i < |ss| ==> DistinctNames(ss[i].node.table)
    decreases |ss| - from
    ensures DistinctTargetFields(SeriesEntries(ss, from))
  {
    if from < |ss| {
      var prefix := SeriesPrefix(from, ss[from].node.typeName);
      var head := AddObjectProperties(SeriesRef(from), Some(ss[from].node), SeriesCategory, prefix);
      var rest := SeriesEntries(ss, from + 1);
      OneEntryPerField(SeriesRef(from), ss[from].node, SeriesCategory, prefix);
      OneEntryPerSeriesField(ss, from + 1);
      JoinDistinctTargetFields(head, rest, from);
    }
  }

  lemma JoinDistinctTargetFields(head: seq<ChartProperty>, rest: seq<ChartProperty>, i: nat)
    requires forall e :: e in head ==> e.target == SeriesRef(i)
    requires forall e :: e in rest ==> e.target.SeriesRef? && i < e.target.index
    requires DistinctFields(head) && DistinctTargetFields(rest)
    ensures DistinctTargetFields(head + rest)
  {
    var es := head + rest;
    forall a, b | 0 <= a < b < |es|
      ensures es[a].target != es[b].target || es[a].field != es[b].field
    {
      if b < |head| {
        assert es[a] == head[a] && es[b] == head[b];
      } else if a < |head| {
        assert es[a] == head[a] && es[b] == rest[b - |head|];
        assert head[a] in head && rest[b - |head|] in rest;
      } else {
        assert es[a] == rest[a - |head|] && es[b] == rest[b - |head|];
      }
    }
  }

  /** The value of a field read directly (not through the reflective, exception-swallowing path). */
  function FieldValue(n: Node, f: string): Value {
    if f in n.values then n.values[f] else Null
  }

  /**
    The three synthetic "Histogram" entries, present only when the X scale
    options are count-interval ones: "Bin Count" shows `Count ?? 15` as an
    `int`, "Underflow Value" and "Overflow Value" are `double?`. All three
    write to the X scale options node.
  */
  function HistogramEntries(scale: Option<ScaleOptions>): (es: seq<ChartProperty>)
    ensures forall e :: e in es ==> e.category == HistogramCategory && e.target == AxisXScaleRef && IsEditable(e.propertyType)
    ensures scale.None? || scale.value.kind != CountInterval ==> es == []
    ensures scale.Some? && scale.value.kind == CountInterval ==>
      && |es| == 3
      && es[0].name == "Bin Count" && es[0].field == CountField && es[0].propertyType == Int32Type
      && es[1].name == "Underflow Value" && es[1].field == UnderflowField && es[1].propertyType == NullableOf(DoubleType)
      && es[2].name == "Overflow Value" && es[2].field == OverflowField && es[2].propertyType == NullableOf(DoubleType)
      && (FieldValue(scale.value.node, CountField).Null? ==> es[0].value == Int32(FallbackBinCount))
      && (!FieldValue(scale.value.node, CountField).Null? ==> es[0].value == FieldValue(scale.value.node, CountField))
      && es[1].value == FieldValue(scale.value.node, UnderflowField)
      && es[2].value == FieldValue(scale.value.node, OverflowField)
      && es[0].description == "Number of bins for histogram"
      && es[1].description == "Values below this go into the underflow bin"
      && es[2].description == "Values above this go into the overflow bin"
  {
    if scale.Some? && scale.value.kind == CountInterval then CountIntervalEntries(scale.value.node) else []
  }

  /** The three synthetic entries read from count-interval scale options `n`, each built as `AddSpecialProperty` builds it. */
  function CountIntervalEntries(n: Node): (es: seq<ChartProperty>)
    ensures |es| == 3
    ensures forall e :: e in es ==> e.category == HistogramCategory && e.target == AxisXScaleRef && IsEditable(e.propertyType)
    ensures es[0].name == "Bin Count" && es[0].field == CountField && es[0].propertyType == Int32Type
    ensures es[1].name == "Underflow Value" && es[1].field == UnderflowField && es[1].propertyType == NullableOf(DoubleType)
    ensures es[2].name == "Overflow Value" && es[2].field == OverflowField && es[2].propertyType == NullableOf(DoubleType)
    ensures FieldValue(n, CountField).Null? ==> es[0].value == Int32(FallbackBinCount)
    ensures !FieldValue(n, CountField).Null? ==> es[0].value == FieldValue(n, CountField)
    ensures es[1].value == FieldValue(n, UnderflowField) && es[2].value == FieldValue(n, OverflowField)
    ensures es[0].description == "Number of bins for histogram"
    ensures es[1].description == "Values below this go into the underflow bin"
    ensures es[2].description == "Values above this go into the overflow bin"
  {
    var count := FieldValue(n, CountField);
    [ ChartProperty("Bin Count", HistogramCategory, if count.Null? then Int32(FallbackBinCount) else count,
        Int32Type, AxisXScaleRef, CountField, "Number of bins for histogram"),
      ChartProperty("Underflow Value", HistogramCategory, FieldValue(n, UnderflowField),
        NullableOf(DoubleType), AxisXScaleRef, UnderflowField, "Values below this go into the underflow bin"),
      ChartProperty("Overflow Value", HistogramCategory, FieldValue(n, OverflowField),
        NullableOf(DoubleType), AxisXScaleRef, OverflowField, "Values above this go into the overflow bin") ]
  }

  /**
    Freshly constructed library objects the builder assigns to null slots
    (`new XYDiagram2D()`, `new AxisX2D()`, ...), and the underlying value of
    `AggregateFunction.Histogram`; their contents belong to the charting
    library.
  */
  datatype Defaults = Defaults(
    diagram: Node,
    axisX: Node,
    countScale: Node,
    axisY: Node,
    continuousScale: Node,
    histogramValue: int)

  /** `Count` of new X scale options: the first series' point count when there is a first series with points, else 10. */
  function DefaultBinCount(ss: seq<Series>): (n: int)
    ensures n > 0
    ensures |ss| > 0 && ss[0].pointCount > 0 ==> n == ss[0].pointCount
    ensures |ss| == 0 || ss[0].pointCount == 0 ==> n == EmptyDataBinCount
  {
    if |ss| > 0 && ss[0].pointCount > 0 then ss[0].pointCount else EmptyDataBinCount
  }

  /** New count-interval X scale options with aggregate function Histogram. */
  function DefaultXScale(d: Defaults, ss: seq<Series>): ScaleOptions {
    var n := d.countScale;
    ScaleOptions(CountInterval, n.(values := n.values
      [AggregateFunctionField := EnumMember(AggregateFunctionEnum, d.histogramValue)]
      [CountField := Int32(DefaultBinCount(ss))]))
  }

  function ScaleOf(c: Chart, x: bool): Option<ScaleOptions> {
    var a := AxisOf(c, x);
    if a.Some? then a.value.scale else None
  }

  /**
    `c'` keeps every node `c` has, with the same contents, the same diagram
    class and the same scale options; series are neither added nor touched.
  */
  ghost predicate Extends(c: Chart, c': Chart) {
    && (forall r :: NodeAt(c, r).Some? ==> NodeAt(c', r) == NodeAt(c, r))
    && (forall i :: NodeAt(c', SeriesRef(i)) == NodeAt(c, SeriesRef(i)))
    && (c.diagram.Some? ==> c'.diagram.Some? && c'.diagram.value.XYDiagram2D? == c.diagram.value.XYDiagram2D?)
    && (forall x :: ScaleOf(c, x).Some? ==> ScaleOf(c', x) == ScaleOf(c, x))
  }

  /** Every structural node the walk reads exists. */
  predicate Complete(c: Chart) {
    && c.diagram.Some?
    && (c.diagram.value.XYDiagram2D? ==>
         && NodeAt(c, AxisXRef).Some? && ScaleOf(c, true).Some?
         && NodeAt(c, AxisYRef).Some? && ScaleOf(c, false).Some?)
  }

  /**
    The lazy initialisation the builder performs: a null diagram becomes a
    new XY diagram; in an XY diagram, a null X axis, X scale options, Y
    axis or Y scale options is replaced by a new one. Nothing that exists is
    replaced.
  */
  function EnsureStructure(c: Chart, d: Defaults): (c': Chart)
    ensures Complete(c')
    ensures Extends(c, c')
    ensures Complete(c) ==> c' == c
    ensures c.diagram.Some? && c.diagram.value.OtherDiagram? ==> c' == c
  {
    var diagram := if c.diagram.None? then XYDiagram2D(d.diagram, None, None, []) else c.diagram.value;
    match diagram
    case OtherDiagram(_) => c.(diagram := Some(diagram))
    case XYDiagram2D(n, ax, ay, ss) =>
      var axisX := ax.GetOr(Axis(d.axisX, None));
      var axisX' := if axisX.scale.None? then axisX.(scale := Some(DefaultXScale(d, ss))) else axisX;
      var axisY := ay.GetOr(Axis(d.axisY, None));
      var axisY' := if axisY.scale.None? then axisY.(scale := Some(ScaleOptions(Continuous, d.continuousScale))) else axisY;
      Chart(c.node, Some(XYDiagram2D(n, Some(axisX'), Some(axisY'), ss)))
  }

  /** Diagram, X axis, X scale options and the synthetic histogram entries. */
  function XAxisEntries(c: Chart): seq<ChartProperty> {
    AddObjectProperties(DiagramRef, NodeAt(c, DiagramRef), DiagramCategory, "XY Diagram")
    + AddObjectProperties(AxisXRef, NodeAt(c, AxisXRef), AxesCategory, "X Axis")
    + AddObjectProperties(AxisXScaleRef, NodeAt(c, AxisXScaleRef), ScaleOptionsCategory, "X Axis Scale")
    + HistogramEntries(ScaleOf(c, true))
  }

  /** Y axis and Y scale options. */
  function YAxisEntries(c: Chart): seq<ChartProperty> {
    AddObjectProperties(AxisYRef, NodeAt(c, AxisYRef), AxesCategory, "Y Axis")
    + AddObjectProperties(AxisYScaleRef, NodeAt(c, AxisYScaleRef), ScaleOptionsCategory, "Y Axis Scale")
  }

  function XYEntries(c: Chart): seq<ChartProperty>
    requires c.diagram.Some? && c.diagram.value.XYDiagram2D?
  {
    XAxisEntries(c) + YAxisEntries(c) + SeriesEntries(c.diagram.value.series, 0)
  }

  /** The entries of a graph whose structural nodes exist, in the order the walk produces them. */
  function CollectEntries(c: Chart): seq<ChartProperty> {
    AddObjectProperties(ChartRef, Some(c.node), ChartCategory, "Chart Control")
    + if c.diagram.Some? && c.diagram.value.XYDiagram2D? then XYEntries(c) else []
  }

  /** The graph after lazy initialisation and the entries read from it. */
  datatype Built = Built(graph: Chart, entries: seq<ChartProperty>)

  /**
    Every entry has a supported type and points at a node of `c`; every
    reflected (non-histogram) entry is filed under its node's category and
    caches what its field's getter returns.
  */
  predicate SoundIn(c: Chart, es: seq<ChartProperty>) {
    forall e :: e in es ==>
      && IsEditable(e.propertyType)
      && NodeAt(c, e.target).Some?
      && (e.category == HistogramCategory || e.category == WalkCategory(e.target))
      && (e.category != HistogramCategory ==> ReadField(c, e.target, e.field) == Some(e.value))
  }

  lemma SoundJoin(c: Chart, a: seq<ChartProperty>, b: seq<ChartProperty>)
    requires SoundIn(c, a) && SoundIn(c, b)
    ensures SoundIn(c, a + b)
  {
  }

  lemma ObjectPartSound(c: Chart, r: NodeRef, category: string, prefix: string)
    requires category == WalkCategory(r)
    ensures SoundIn(c, AddObjectProperties(r, NodeAt(c, r), category, prefix))
  {
  }

  lemma SeriesPartSound(c: Chart)
    requires c.diagram.Some? && c.diagram.value.XYDiagram2D?
    ensures SoundIn(c, SeriesEntries(c.diagram.value.series, 0))
  {
    SeriesListSound(c, c.diagram.value.series, SeriesEntries(c.diagram.value.series, 0));
  }

  lemma SeriesListSound(c: Chart, ss: seq<Series>, es: seq<ChartProperty>)
    requires c.diagram.Some? && c.diagram.value.XYDiagram2D? && ss == c.diagram.value.series
    requires forall e :: e in es ==>
      && e.category == SeriesCategory && IsEditable(e.propertyType)
      && e.target.SeriesRef? && 0 <= e.target.index < |ss|
      && e.field in ss[e.target.index].node.values && e.value == ss[e.target.index].node.values[e.field]
    ensures SoundIn(c, es)
  {
    forall e | e in es
      ensures NodeAt(c, e.target) == Some(ss[e.target.index].node)
    {
    }
  }

  lemma HistogramPartSound(c: Chart)
    ensures SoundIn(c, HistogramEntries(ScaleOf(c, true)))
  {
    if ScaleOf(c, true).Some? {
      assert NodeAt(c, AxisXScaleRef).Some?;
    }
  }

  lemma XAxisPartSound(c: Chart)
    ensures SoundIn(c, XAxisEntries(c))
  {
    var p1 := AddObjectProperties(DiagramRef, NodeAt(c, DiagramRef), DiagramCategory, "XY Diagram");
    var p2 := AddObjectProperties(AxisXRef, NodeAt(c, AxisXRef), AxesCategory, "X Axis");
    var p3 := AddObjectProperties(AxisXScaleRef, NodeAt(c, AxisXScaleRef), ScaleOptionsCategory, "X Axis Scale");
    var p4 := HistogramEntries(ScaleOf(c, true));
    ObjectPartSound(c, DiagramRef, DiagramCategory, "XY Diagram");
    ObjectPartSound(c, AxisXRef, AxesCategory, "X Axis");
    ObjectPartSound(c, AxisXScaleRef, ScaleOptionsCategory, "X Axis Scale");
    HistogramPartSound(c);
    SoundJoin(c, p1, p2);
    SoundJoin(c, p1 + p2, p3);
    SoundJoin(c, p1 + p2 + p3, p4);
  }

  lemma YAxisPartSound(c: Chart)
    ensures SoundIn(c, YAxisEntries(c))
  {
    ObjectPartSound(c, AxisYRef, AxesCategory, "Y Axis");
    ObjectPartSound(c, AxisYScaleRef, ScaleOptionsCategory, "Y Axis Scale");
    SoundJoin(c, AddObjectProperties(AxisYRef, NodeAt(c, AxisYRef), AxesCategory, "Y Axis"),
      AddObjectProperties(AxisYScaleRef, NodeAt(c, AxisYScaleRef), ScaleOptionsCategory, "Y Axis Scale"));
  }

  /** Every entry the walk emits has a supported type and points at a node of the graph it was read from. */
  lemma CollectedEntriesAreSound(c: Chart)
    ensures SoundIn(c, CollectEntries(c))
  {
    ObjectPartSound(c, ChartRef, ChartCategory, "Chart Control");
    if c.diagram.Some? && c.diagram.value.XYDiagram2D? {
      XAxisPartSound(c);
      YAxisPartSound(c);
      SeriesPartSound(c);
    }
  }

  /** The category the walk files a node's entries under. */
  function WalkCategory(r: NodeRef): string {
    match r
    case ChartRef => ChartCategory
    case DiagramRef => DiagramCategory
    case AxisXRef => AxesCategory
    case AxisYRef => AxesCategory
    case AxisXScaleRef => ScaleOptionsCategory
    case AxisYScaleRef => ScaleOptionsCategory
    case SeriesRef(_) => SeriesCategory
  }

  /** The prefix of the entry names of node `n` at `r`. */
  function WalkPrefix(r: NodeRef, n: Node): string {
    match r
    case ChartRef => "Chart Control"
    case DiagramRef => "XY Diagram"
    case AxisXRef => "X Axis"
    case AxisYRef => "Y Axis"
    case AxisXScaleRef => "X Axis Scale"
    case AxisYScaleRef => "Y Axis Scale"
    case SeriesRef(i) => SeriesPrefix(i, n.typeName)
  }

  /** The walk visits the chart always, and every other node only inside an XY diagram. */
  predicate Walked(c: Chart, r: NodeRef) {
    r.ChartRef? || (c.diagram.Some? && c.diagram.value.XYDiagram2D?)
  }

  /** Every emitting field of every node the walk visits gives its entry. */
  ghost predicate CompleteIn(c: Chart, es: seq<ChartProperty>) {
    forall r, fd :: Walked(c, r) && NodeAt(c, r).Some? && fd in NodeAt(c, r).value.table && Emits(NodeAt(c, r).value, fd) ==>
      EntryFor(r, NodeAt(c, r).value, fd, WalkCategory(r), WalkPrefix(r, NodeAt(c, r).value)) in es
  }

  lemma XAxisPartComplete(c: Chart, r: NodeRef, fd: FieldDescriptor)
    requires r.DiagramRef? || r.AxisXRef? || r.AxisXScaleRef?
    requires NodeAt(c, r).Some? && fd in NodeAt(c, r).value.table && Emits(NodeAt(c, r).value, fd)
    ensures EntryFor(r, NodeAt(c, r).value, fd, WalkCategory(r), WalkPrefix(r, NodeAt(c, r).value)) in XAxisEntries(c)
  {
    var p1 := AddObjectProperties(DiagramRef, NodeAt(c, DiagramRef), DiagramCategory, "XY Diagram");
    var p2 := AddObjectProperties(AxisXRef, NodeAt(c, AxisXRef), AxesCategory, "X Axis");
    var p3 := AddObjectProperties(AxisXScaleRef, NodeAt(c, AxisXScaleRef), ScaleOptionsCategory, "X Axis Scale");
    assert XAxisEntries(c) == p1 + p2 + p3 + HistogramEntries(ScaleOf(c, true));
  }

  lemma YAxisPartComplete(c: Chart, r: NodeRef, fd: FieldDescriptor)
    requires r.AxisYRef? || r.AxisYScaleRef?
    requires NodeAt(c, r).Some? && fd in NodeAt(c, r).value.table && Emits(NodeAt(c, r).value, fd)
    ensures EntryFor(r, NodeAt(c, r).value, fd, WalkCategory(r), WalkPrefix(r, NodeAt(c, r).value)) in YAxisEntries(c)
  {
  }

  lemma SeriesPartComplete(c: Chart, i: nat, fd: FieldDescriptor)
    requires c.diagram.Some? && c.diagram.value.XYDiagram2D?
    requires NodeAt(c, SeriesRef(i)).Some? && fd in NodeAt(c, SeriesRef(i)).value.table && Emits(NodeAt(c, SeriesRef(i)).value, fd)
    ensures var n := NodeAt(c, SeriesRef(i)).value;
      EntryFor(SeriesRef(i), n, fd, SeriesCategory, SeriesPrefix(i, n.typeName)) in SeriesEntries(c.diagram.value.series, 0)
  {
  }

  /** No emitting field of a visited node is missed by the walk. */
  lemma CollectedEntriesAreComplete(c: Chart)
    ensures CompleteIn(c, CollectEntries(c))
  {
    forall r, fd | Walked(c, r) && NodeAt(c, r).Some? && fd in NodeAt(c, r).value.table && Emits(NodeAt(c, r).value, fd)
      ensures EntryFor(r, NodeAt(c, r).value, fd, WalkCategory(r), WalkPrefix(r, NodeAt(c, r).value)) in CollectEntries(c)
    {
      var chartPart := AddObjectProperties(ChartRef, Some(c.node), ChartCategory, "Chart Control");
      if r.ChartRef? {
        assert CollectEntries(c) == chartPart + (if c.diagram.Some? && c.diagram.value.XYDiagram2D? then XYEntries(c) else []);
      } else {
        assert CollectEntries(c) == chartPart + XYEntries(c);
        var ss := c.diagram.value.series;
        assert XYEntries(c) == XAxisEntries(c) + YAxisEntries(c) + SeriesEntries(ss, 0);
        if r.DiagramRef? || r.AxisXRef? || r.AxisXScaleRef? {
          XAxisPartComplete(c, r, fd);
        } else if r.AxisYRef? || r.AxisYScaleRef? {
          YAxisPartComplete(c, r, fd);
        } else {
          SeriesPartComplete(c, r.index, fd);
        }
      }
    }
  }

  /**
    `CollectChartProperties`: the graph after lazy initialisation is complete
    and keeps everything the input had; the catalog lists every emitting
    field of every visited node, and every entry it lists points at a node
    of that graph, caches what its field holds and is filed under one of the
    six walk categories.
  */
  function CollectChartProperties(c: Chart, d: Defaults): (b: Built)
    ensures Complete(b.graph) && Extends(c, b.graph)
    ensures SoundIn(b.graph, b.entries)
    ensures CompleteIn(b.graph, b.entries)
    ensures forall e :: e in b.entries ==>
      e.category in {ChartCategory, DiagramCategory, AxesCategory, ScaleOptionsCategory, HistogramCategory, SeriesCategory}
  {
    var c' := EnsureStructure(c, d);
    CollectedEntriesAreSound(c');
    CollectedEntriesAreComplete(c');
    Built(c', CollectEntries(c'))
  }

  /** Building from what a build produced creates nothing new and reads the same entries. */
  lemma RebuildIsIdempotent(c: Chart, d: Defaults)
    ensures var b := CollectChartProperties(c, d);
      CollectChartProperties(b.graph, d) == b
  {
  }

  /** A diagram of another class than XYDiagram2D is left alone, and only the chart-level entries appear. */
  lemma OtherDiagramYieldsChartEntriesOnly(c: Chart, d: Defaults)
    requires c.diagram.Some? && c.diagram.value.OtherDiagram?
    ensures CollectChartProperties(c, d).graph == c
    ensures CollectChartProperties(c, d).entries == AddObjectProperties(ChartRef, Some(c.node), ChartCategory, "Chart Control")
  {
    assert CollectEntries(c) == AddObjectProperties(ChartRef, Some(c.node), ChartCategory, "Chart Control") + [];
  }

  /** The series a chart's XY diagram holds; none when the diagram is null. */
  function SeriesOf(c: Chart): seq<Series> {
    if c.diagram.Some? && c.diagram.value.XYDiagram2D? then c.diagram.value.series else []
  }

  /**
    When the X scale options are null they are created as count-interval
    options with aggregate function Histogram and a `Count` equal to the
    first series' point count if it has points, and 10 otherwise.
  */
  lemma NewXScaleIsHistogram(c: Chart, d: Defaults)
    requires c.diagram.None? || c.diagram.value.XYDiagram2D?
    requires ScaleOf(c, true).None?
    ensures var s := ScaleOf(CollectChartProperties(c, d).graph, true);
      var ss := SeriesOf(c);
      && s.Some? && s.value.kind == CountInterval
      && FieldValue(s.value.node, AggregateFunctionField) == EnumMember(AggregateFunctionEnum, d.histogramValue)
      && FieldValue(s.value.node, CountField) == Int32(if |ss| > 0 && ss[0].pointCount > 0 then ss[0].pointCount else 10)
  {
    NewXScaleIsDefault(c, d);
    DefaultXScaleFields(d, SeriesOf(c));
  }

  lemma DefaultXScaleFields(d: Defaults, ss: seq<Series>)
    ensures var n := DefaultXScale(d, ss).node;
      && FieldValue(n, AggregateFunctionField) == EnumMember(AggregateFunctionEnum, d.histogramValue)
      && FieldValue(n, CountField) == Int32(if |ss| > 0 && ss[0].pointCount > 0 then ss[0].pointCount else 10)
  {
  }

  lemma NewXScaleIsDefault(c: Chart, d: Defaults)
    requires c.diagram.None? || c.diagram.value.XYDiagram2D?
    requires ScaleOf(c, true).None?
    ensures ScaleOf(CollectChartProperties(c, d).graph, true) == Some(DefaultXScale(d, SeriesOf(c)))
  {
    assert CollectChartProperties(c, d).graph == EnsureStructure(c, d);
  }

  lemma {:induction false} SeriesEntriesNotHistogram(ss: seq<Series>, from: nat)
    ensures InCategory(SeriesEntries(ss, from), HistogramCategory) == []
  {
    InCategoryOfNone(SeriesEntries(ss, from), HistogramCategory);
  }

  lemma XAxisHistogramPart(g: Chart)
    ensures InCategory(XAxisEntries(g), HistogramCategory) == HistogramEntries(ScaleOf(g, true))
  {
    var h := HistogramCategory;
    var p1 := AddObjectProperties(DiagramRef, NodeAt(g, DiagramRef), DiagramCategory, "XY Diagram");
    var p2 := AddObjectProperties(AxisXRef, NodeAt(g, AxisXRef), AxesCategory, "X Axis");
    var p3 := AddObjectProperties(AxisXScaleRef, NodeAt(g, AxisXScaleRef), ScaleOptionsCategory, "X Axis Scale");
    var p4 := HistogramEntries(ScaleOf(g, true));
    InCategoryOfNone(p1, h);
    InCategoryOfNone(p2, h);
    InCategoryOfNone(p3, h);
    InCategoryOfAll(p4, h);
    InCategoryOfJoin(p1, p2, h);
    InCategoryOfJoin(p1 + p2, p3, h);
    InCategoryOfJoin(p1 + p2 + p3, p4, h);
  }

  lemma YAxisHistogramPart(g: Chart)
    ensures InCategory(YAxisEntries(g), HistogramCategory) == []
  {
    var h := HistogramCategory;
    var p5 := AddObjectProperties(AxisYRef, NodeAt(g, AxisYRef), AxesCategory, "Y Axis");
    var p6 := AddObjectProperties(AxisYScaleRef, NodeAt(g, AxisYScaleRef), ScaleOptionsCategory, "Y Axis Scale");
    InCategoryOfNone(p5, h);
    InCategoryOfNone(p6, h);
    InCategoryOfJoin(p5, p6, h);
  }

  lemma XYHistogramPart(g: Chart)
    requires g.diagram.Some? && g.diagram.value.XYDiagram2D?
    ensures InCategory(XYEntries(g), HistogramCategory) == HistogramEntries(ScaleOf(g, true))
  {
    var h := HistogramCategory;
    XAxisHistogramPart(g);
    YAxisHistogramPart(g);
    SeriesEntriesNotHistogram(g.diagram.value.series, 0);
    InCategoryOfJoin(XAxisEntries(g), YAxisEntries(g), h);
    InCategoryOfJoin(XAxisEntries(g) + YAxisEntries(g), SeriesEntries(g.diagram.value.series, 0), h);
  }

  /** The walk's histogram entries are the only ones in the "Histogram" category. */
  lemma CollectedHistogramPart(g: Chart)
    ensures InCategory(CollectEntries(g), HistogramCategory) == HistogramEntries(ScaleOf(g, true))
  {
    var h := HistogramCategory;
    var chartPart := AddObjectProperties(ChartRef, Some(g.node), ChartCategory, "Chart Control");
    InCategoryOfNone(chartPart, h);
    if g.diagram.Some? && g.diagram.value.XYDiagram2D? {
      XYHistogramPart(g);
      InCategoryOfJoin(chartPart, XYEntries(g), h);
    } else {
      assert CollectEntries(g) == chartPart;
      assert HistogramEntries(ScaleOf(g, true)) == [];
    }
  }

  /**
    The "Histogram" category of a built catalog holds exactly the synthetic
    entries: three ("Bin Count", "Underflow Value", "Overflow Value") when the
    X scale options are count-interval, none otherwise.
  */
  lemma HistogramCategoryIsSynthetic(c: Chart, d: Defaults)
    ensures var b := CollectChartProperties(c, d);
      InCategory(b.entries, HistogramCategory) == HistogramEntries(ScaleOf(b.graph, true))
    ensures var b := CollectChartProperties(c, d);
      var s := ScaleOf(b.graph, true);
      |InCategory(b.entries, HistogramCategory)| == (if s.Some? && s.value.kind == CountInterval then 3 else 0)
  {
    CollectedHistogramPart(CollectChartProperties(c, d).graph);
  }

  lemma {:induction false} JoinOfFour(a: seq<ChartProperty>, b: seq<ChartProperty>, c: seq<ChartProperty>, d: seq<ChartProperty>, k: string)
    ensures InCategory(a + b + c + d, k) == InCategory(a, k) + InCategory(b, k) + InCategory(c, k) + InCategory(d, k)
  {
    InCategoryOfJoin(a, b, k);
    InCategoryOfJoin(a + b, c, k);
    InCategoryOfJoin(a + b + c, d, k);
  }

  /** An object's entries all carry the category they were reflected under. */
  lemma ObjectPartIn(r: NodeRef, node: Option<Node>, category: string, prefix: string, k: string)
    ensures InCategory(AddObjectProperties(r, node, category, prefix), k) ==
      if category == k then AddObjectProperties(r, node, category, prefix) else []
  {
    if category == k {
      InCategoryOfAll(AddObjectProperties(r, node, category, prefix), k);
    } else {
      InCategoryOfNone(AddObjectProperties(r, node, category, prefix), k);
    }
  }

  lemma HistogramPartIn(scale: Option<ScaleOptions>, k: string)
    requires k != HistogramCategory
    ensures InCategory(HistogramEntries(scale), k) == []
  {
    InCategoryOfNone(HistogramEntries(scale), k);
  }

  /** Of four consecutive parts, only the one wholly in category `k` survives the filter. */
  lemma OnlyPartIn(p1: seq<ChartProperty>, p2: seq<ChartProperty>, p3: seq<ChartProperty>, p4: seq<ChartProperty>, k: string, which: nat)
    requires which == 2 || which == 3
    requires InCategory(p1, k) == [] && InCategory(p4, k) == []
    requires InCategory(p2, k) == (if which == 2 then p2 else [])
    requires InCategory(p3, k) == (if which == 3 then p3 else [])
    ensures InCategory(p1 + p2 + p3 + p4, k) == if which == 2 then p2 else p3
  {
    JoinOfFour(p1, p2, p3, p4, k);
    if which == 2 {
      assert [] + p2 + [] + [] == p2;
    } else {
      assert [] + [] + p3 + [] == p3;
    }
  }

  lemma XAxisAxesPart(g: Chart)
    ensures InCategory(XAxisEntries(g), AxesCategory) == AddObjectProperties(AxisXRef, NodeAt(g, AxisXRef), AxesCategory, "X Axis")
  {
    var k := AxesCategory;
    ObjectPartIn(DiagramRef, NodeAt(g, DiagramRef), DiagramCategory, "XY Diagram", k);
    ObjectPartIn(AxisXRef, NodeAt(g, AxisXRef), AxesCategory, "X Axis", k);
    ObjectPartIn(AxisXScaleRef, NodeAt(g, AxisXScaleRef), ScaleOptionsCategory, "X Axis Scale", k);
    HistogramPartIn(ScaleOf(g, true), k);
    OnlyPartIn(AddObjectProperties(DiagramRef, NodeAt(g, DiagramRef), DiagramCategory, "XY Diagram"),
      AddObjectProperties(AxisXRef, NodeAt(g, AxisXRef), AxesCategory, "X Axis"),
      AddObjectProperties(AxisXScaleRef, NodeAt(g, AxisXScaleRef), ScaleOptionsCategory, "X Axis Scale"),
      HistogramEntries(ScaleOf(g, true)), k, 2);
  }

  lemma XAxisScalePart(g: Chart)
    ensures InCategory(XAxisEntries(g), ScaleOptionsCategory) ==
      AddObjectProperties(AxisXScaleRef, NodeAt(g, AxisXScaleRef), ScaleOptionsCategory, "X Axis Scale")
  {
    var k := ScaleOptionsCategory;
    ObjectPartIn(DiagramRef, NodeAt(g, DiagramRef), DiagramCategory, "XY Diagram", k);
    ObjectPartIn(AxisXRef, NodeAt(g, AxisXRef), AxesCategory, "X Axis", k);
    ObjectPartIn(AxisXScaleRef, NodeAt(g, AxisXScaleRef), ScaleOptionsCategory, "X Axis Scale", k);
    HistogramPartIn(ScaleOf(g, true), k);
    OnlyPartIn(AddObjectProperties(DiagramRef, NodeAt(g, DiagramRef), DiagramCategory, "XY Diagram"),
      AddObjectProperties(AxisXRef, NodeAt(g, AxisXRef), AxesCategory, "X Axis"),
      AddObjectProperties(AxisXScaleRef, NodeAt(g, AxisXScaleRef), ScaleOptionsCategory, "X Axis Scale"),
      HistogramEntries(ScaleOf(g, true)), k, 3);
  }

  lemma YAxisAxesPart(g: Chart)
    ensures InCategory(YAxisEntries(g), AxesCategory) == AddObjectProperties(AxisYRef, NodeAt(g, AxisYRef), AxesCategory, "Y Axis")
  {
    var k := AxesCategory;
    var p5 := AddObjectProperties(AxisYRef, NodeAt(g, AxisYRef), AxesCategory, "Y Axis");
    var p6 := AddObjectProperties(AxisYScaleRef, NodeAt(g, AxisYScaleRef), ScaleOptionsCategory, "Y Axis Scale");
    InCategoryOfJoin(p5, p6, k);
    InCategoryOfAll(p5, k);
    InCategoryOfNone(p6, k);
  }

  lemma YAxisScalePart(g: Chart)
    ensures InCategory(YAxisEntries(g), ScaleOptionsCategory) ==
      AddObjectProperties(AxisYScaleRef, NodeAt(g, AxisYScaleRef), ScaleOptionsCategory, "Y Axis Scale")
  {
    var k := ScaleOptionsCategory;
    var p5 := AddObjectProperties(AxisYRef, NodeAt(g, AxisYRef), AxesCategory, "Y Axis");
    var p6 := AddObjectProperties(AxisYScaleRef, NodeAt(g, AxisYScaleRef), ScaleOptionsCategory, "Y Axis Scale");
    InCategoryOfJoin(p5, p6, k);
    InCategoryOfNone(p5, k);
    InCategoryOfAll(p6, k);
  }

  lemma XYAxesPart(g: Chart)
    requires g.diagram.Some? && g.diagram.value.XYDiagram2D?
    ensures InCategory(XYEntries(g), AxesCategory) ==
      AddObjectProperties(AxisXRef, NodeAt(g, AxisXRef), AxesCategory, "X Axis")
      + AddObjectProperties(AxisYRef, NodeAt(g, AxisYRef), AxesCategory, "Y Axis")
  {
    var k := AxesCategory;
    XAxisAxesPart(g);
    YAxisAxesPart(g);
    InCategoryOfNone(SeriesEntries(g.diagram.value.series, 0), k);
    InCategoryOfJoin(XAxisEntries(g), YAxisEntries(g), k);
    InCategoryOfJoin(XAxisEntries(g) + YAxisEntries(g), SeriesEntries(g.diagram.value.series, 0), k);
  }

  lemma XYScalePart(g: Chart)
    requires g.diagram.Some? && g.diagram.value.XYDiagram2D?
    ensures InCategory(XYEntries(g), ScaleOptionsCategory) ==
      AddObjectProperties(AxisXScaleRef, NodeAt(g, AxisXScaleRef), ScaleOptionsCategory, "X Axis Scale")
      + AddObjectProperties(AxisYScaleRef, NodeAt(g, AxisYScaleRef), ScaleOptionsCategory, "Y Axis Scale")
  {
    var k := ScaleOptionsCategory;
    XAxisScalePart(g);
    YAxisScalePart(g);
    InCategoryOfNone(SeriesEntries(g.diagram.value.series, 0), k);
    InCategoryOfJoin(XAxisEntries(g), YAxisEntries(g), k);
    InCategoryOfJoin(XAxisEntries(g) + YAxisEntries(g), SeriesEntries(g.diagram.value.series, 0), k);
  }

  lemma CollectedAxesPart(g: Chart)
    requires g.diagram.Some? && g.diagram.value.XYDiagram2D?
    ensures InCategory(CollectEntries(g), AxesCategory) ==
      AddObjectProperties(AxisXRef, NodeAt(g, AxisXRef), AxesCategory, "X Axis")
      + AddObjectProperties(AxisYRef, NodeAt(g, AxisYRef), AxesCategory, "Y Axis")
  {
    var k := AxesCategory;
    var chartPart := AddObjectProperties(ChartRef, Some(g.node), ChartCategory, "Chart Control");
    InCategoryOfNone(chartPart, k);
    XYAxesPart(g);
    InCategoryOfJoin(chartPart, XYEntries(g), k);
  }

  lemma CollectedScaleOptionsPart(g: Chart)
    requires g.diagram.Some? && g.diagram.value.XYDiagram2D?
    ensures InCategory(CollectEntries(g), ScaleOptionsCategory) ==
      AddObjectProperties(AxisXScaleRef, NodeAt(g, AxisXScaleRef), ScaleOptionsCategory, "X Axis Scale")
      + AddObjectProperties(AxisYScaleRef, NodeAt(g, AxisYScaleRef), ScaleOptionsCategory, "Y Axis Scale")
  {
    var k := ScaleOptionsCategory;
    var chartPart := AddObjectProperties(ChartRef, Some(g.node), ChartCategory, "Chart Control");
    InCategoryOfNone(chartPart, k);
    XYScalePart(g);
    InCategoryOfJoin(chartPart, XYEntries(g), k);
  }

  lemma XAxisNotIn(g: Chart, k: string)
    requires k != DiagramCategory && k != AxesCategory && k != ScaleOptionsCategory && k != HistogramCategory
    ensures InCategory(XAxisEntries(g), k) == []
  {
    ObjectPartIn(DiagramRef, NodeAt(g, DiagramRef), DiagramCategory, "XY Diagram", k);
    ObjectPartIn(AxisXRef, NodeAt(g, AxisXRef), AxesCategory, "X Axis", k);
    ObjectPartIn(AxisXScaleRef, NodeAt(g, AxisXScaleRef), ScaleOptionsCategory, "X Axis Scale", k);
    HistogramPartIn(ScaleOf(g, true), k);
    JoinOfFour(AddObjectProperties(DiagramRef, NodeAt(g, DiagramRef), DiagramCategory, "XY Diagram"),
      AddObjectProperties(AxisXRef, NodeAt(g, AxisXRef), AxesCategory, "X Axis"),
      AddObjectProperties(AxisXScaleRef, NodeAt(g, AxisXScaleRef), ScaleOptionsCategory, "X Axis Scale"),
      HistogramEntries(ScaleOf(g, true)), k);
  }

  lemma YAxisNotIn(g: Chart, k: string)
    requires k != AxesCategory && k != ScaleOptionsCategory
    ensures InCategory(YAxisEntries(g), k) == []
  {
    var p5 := AddObjectProperties(AxisYRef, NodeAt(g, AxisYRef), AxesCategory, "Y Axis");
    var p6 := AddObjectProperties(AxisYScaleRef, NodeAt(g, AxisYScaleRef), ScaleOptionsCategory, "Y Axis Scale");
    InCategoryOfJoin(p5, p6, k);
    InCategoryOfNone(p5, k);
    InCategoryOfNone(p6, k);
  }

  lemma XAxisDiagramPart(g: Chart)
    ensures InCategory(XAxisEntries(g), DiagramCategory) ==
      AddObjectProperties(DiagramRef, NodeAt(g, DiagramRef), DiagramCategory, "XY Diagram")
  {
    var k := DiagramCategory;
    var p1 := AddObjectProperties(DiagramRef, NodeAt(g, DiagramRef), DiagramCategory, "XY Diagram");
    ObjectPartIn(DiagramRef, NodeAt(g, DiagramRef), DiagramCategory, "XY Diagram", k);
    ObjectPartIn(AxisXRef, NodeAt(g, AxisXRef), AxesCategory, "X Axis", k);
    ObjectPartIn(AxisXScaleRef, NodeAt(g, AxisXScaleRef), ScaleOptionsCategory, "X Axis Scale", k);
    HistogramPartIn(ScaleOf(g, true), k);
    JoinOfFour(p1,
      AddObjectProperties(AxisXRef, NodeAt(g, AxisXRef), AxesCategory, "X Axis"),
      AddObjectProperties(AxisXScaleRef, NodeAt(g, AxisXScaleRef), ScaleOptionsCategory, "X Axis Scale"),
      HistogramEntries(ScaleOf(g, true)), k);
    assert p1 + [] + [] + [] == p1;
  }

  lemma CollectedChartPart(g: Chart)
    ensures InCategory(CollectEntries(g), ChartCategory) ==
      AddObjectProperties(ChartRef, Some(g.node), ChartCategory, "Chart Control")
  {
    var k := ChartCategory;
    var chartPart := AddObjectProperties(ChartRef, Some(g.node), ChartCategory, "Chart Control");
    InCategoryOfAll(chartPart, k);
    if g.diagram.Some? && g.diagram.value.XYDiagram2D? {
      XAxisNotIn(g, k);
      YAxisNotIn(g, k);
      InCategoryOfNone(SeriesEntries(g.diagram.value.series, 0), k);
      InCategoryOfJoin(XAxisEntries(g), YAxisEntries(g), k);
      InCategoryOfJoin(XAxisEntries(g) + YAxisEntries(g), SeriesEntries(g.diagram.value.series, 0), k);
      InCategoryOfJoin(chartPart, XYEntries(g), k);
    } else {
      assert CollectEntries(g) == chartPart;
    }
  }

  lemma CollectedDiagramPart(g: Chart)
    requires g.diagram.Some? && g.diagram.value.XYDiagram2D?
    ensures InCategory(CollectEntries(g), DiagramCategory) ==
      AddObjectProperties(DiagramRef, NodeAt(g, DiagramRef), DiagramCategory, "XY Diagram")
  {
    var k := DiagramCategory;
    var chartPart := AddObjectProperties(ChartRef, Some(g.node), ChartCategory, "Chart Control");
    InCategoryOfNone(chartPart, k);
    XAxisDiagramPart(g);
    YAxisNotIn(g, k);
    InCategoryOfNone(SeriesEntries(g.diagram.value.series, 0), k);
    InCategoryOfJoin(XAxisEntries(g), YAxisEntries(g), k);
    InCategoryOfJoin(XAxisEntries(g) + YAxisEntries(g), SeriesEntries(g.diagram.value.series, 0), k);
    InCategoryOfJoin(chartPart, XYEntries(g), k);
  }

  lemma CollectedSeriesPart(g: Chart)
    ensures InCategory(CollectEntries(g), SeriesCategory) == SeriesEntries(SeriesOf(g), 0)
  {
    var k := SeriesCategory;
    var chartPart := AddObjectProperties(ChartRef, Some(g.node), ChartCategory, "Chart Control");
    InCategoryOfNone(chartPart, k);
    if g.diagram.Some? && g.diagram.value.XYDiagram2D? {
      var sp := SeriesEntries(g.diagram.value.series, 0);
      XAxisNotIn(g, k);
      YAxisNotIn(g, k);
      InCategoryOfAll(sp, k);
      InCategoryOfJoin(XAxisEntries(g), YAxisEntries(g), k);
      InCategoryOfJoin(XAxisEntries(g) + YAxisEntries(g), sp, k);
      InCategoryOfJoin(chartPart, XYEntries(g), k);
    } else {
      assert CollectEntries(g) == chartPart;
    }
  }

  /** The "Chart" category of a built catalog lists the chart control's own entries, read from the graph as it was given. */
  lemma ChartCategoryIsChartControl(c: Chart, d: Defaults)
    ensures InCategory(CollectChartProperties(c, d).entries, ChartCategory) ==
      AddObjectProperties(ChartRef, Some(c.node), ChartCategory, "Chart Control")
  {
    var g := CollectChartProperties(c, d).graph;
    assert NodeAt(g, ChartRef) == NodeAt(c, ChartRef);
    CollectedChartPart(g);
  }

  /** The "Diagram" category of a built catalog lists the entries of the XY diagram, the given one or the one created. */
  lemma DiagramCategoryIsDiagram(c: Chart, d: Defaults)
    requires c.diagram.None? || c.diagram.value.XYDiagram2D?
    ensures var g := CollectChartProperties(c, d).graph;
      InCategory(CollectChartProperties(c, d).entries, DiagramCategory) ==
      AddObjectProperties(DiagramRef, NodeAt(g, DiagramRef), DiagramCategory, "XY Diagram")
  {
    CollectedDiagramPart(CollectChartProperties(c, d).graph);
  }

  /** The "Series" category of a built catalog lists the entries of the given series, in series order. */
  lemma SeriesCategoryIsSeries(c: Chart, d: Defaults)
    ensures InCategory(CollectChartProperties(c, d).entries, SeriesCategory) == SeriesEntries(SeriesOf(c), 0)
  {
    var g := CollectChartProperties(c, d).graph;
    assert SeriesOf(g) == SeriesOf(c);
    CollectedSeriesPart(g);
  }

  /**
    The walk visits the X axis before the Y axis: the "Axes" category of a
    built catalog lists the X-axis entries, then the Y-axis entries, and
    nothing else.
  */
  lemma AxesInWalkOrder(c: Chart, d: Defaults)
    requires c.diagram.None? || c.diagram.value.XYDiagram2D?
    ensures var g := CollectChartProperties(c, d).graph;
      InCategory(CollectChartProperties(c, d).entries, AxesCategory) ==
      AddObjectProperties(AxisXRef, NodeAt(g, AxisXRef), AxesCategory, "X Axis")
      + AddObjectProperties(AxisYRef, NodeAt(g, AxisYRef), AxesCategory, "Y Axis")
  {
    CollectedAxesPart(CollectChartProperties(c, d).graph);
  }

  /**
    Likewise the "Scale Options" category lists the X scale options' entries,
    then the Y scale options' entries, and nothing else.
  */
  lemma ScaleOptionsInWalkOrder(c: Chart, d: Defaults)
    requires c.diagram.None? || c.diagram.value.XYDiagram2D?
    ensures var g := CollectChartProperties(c, d).graph;
      InCategory(CollectChartProperties(c, d).entries, ScaleOptionsCategory) ==
      AddObjectProperties(AxisXScaleRef, NodeAt(g, AxisXScaleRef), ScaleOptionsCategory, "X Axis Scale")
      + AddObjectProperties(AxisYScaleRef, NodeAt(g, AxisYScaleRef), ScaleOptionsCategory, "Y Axis Scale")
  {
    CollectedScaleOptionsPart(CollectChartProperties(c, d).graph);
  }
}

=== FILE: categories.dfy ===
/**
  The category index of the properties dialog (`LoadProperties` and
  `ChartPropertyCategoryViewModel`): entries grouped by category name,
  categories in ascending name order, each category's rows ordered by
  short name, a header with the row count, and two categories expanded.
*/
module Categories {
  import opened Text
  import opened Clr
  import opened ChartPropertyModel
  import opened PropertyEditors
  import opened Sorting

  datatype Category = Category(name: string, header: string, properties: seq<PropertyEditor>, isExpanded: bool)

  /** The sort key of an entry's row: its short name. */
  function EntryName(p: ChartProperty): string {
    ShortName(p.name)
  }

  function Editors(ps: seq<ChartProperty>): (r: seq<PropertyEditor>)
    ensures |r| == |ps|
    ensures forall i :: 0 <= i < |ps| ==> r[i] == NewEditor(ps[i])
  {
    if |ps| == 0 then [] else [NewEditor(ps[0])] + Editors(ps[1..])
  }

  function Models(eds: seq<PropertyEditor>): (r: seq<ChartProperty>)
    ensures |r| == |eds|
    ensures forall i :: 0 <= i < |eds| ==> r[i] == eds[i].model
  {
    if |eds| == 0 then [] else [eds[0].model] + Models(eds[1..])
  }

  lemma ModelsOfEditors(ps: seq<ChartProperty>)
    ensures Models(Editors(ps)) == ps
  {
  }

  lemma {:induction false} ModelsOfJoin(a: seq<PropertyEditor>, b: seq<PropertyEditor>)
    ensures Models(a + b) == Models(a) + Models(b)
  {
  }

  function Header(name: string, count: nat): string {
    name + " (" + Decimal(count) + " properties)"
  }

  /** A header names its row count unambiguously: equal headers of one category mean equal counts. */
  lemma HeaderDeterminesCount(name: string, a: nat, b: nat)
    requires Header(name, a) == Header(name, b)
    ensures a == b
  {
    var p := name + " (";
    var da := Decimal(a);
    var db := Decimal(b);
    assert |da| == |db|;
    assert da == Header(name, a)[|p|..|p| + |da|];
    assert db == Header(name, b)[|p|..|p| + |db|];
    DecimalInjective(a, b);
  }

  /**
    The category constructor: rows for the given entries, each starting
    unchanged, ordered stably by short name (the order `OrderBy(p => p.Name)`
    gives, here applied before wrapping each entry, which yields the same
    rows), and the header "<name> (<n> properties)". Not expanded.
  */
  function NewCategory(name: string, ps: seq<ChartProperty>): (c: Category)
    ensures c.name == name && !c.isExpanded
    ensures c.header == Header(name, |ps|)
    ensures |c.properties| == |ps|
    ensures multiset(Models(c.properties)) == multiset(ps)
    ensures SortedBy(c.properties, Name)
    ensures forall e :: e in c.properties ==> !HasChanged(e)
  {
    var sorted := SortBy(ps, EntryName);
    ModelsOfEditors(sorted);
    EditorsKeepOrder(sorted);
    Category(name, Header(name, |ps|), Editors(sorted), false)
  }

  lemma EditorsKeepOrder(ps: seq<ChartProperty>)
    requires SortedBy(ps, EntryName)
    ensures SortedBy(Editors(ps), Name)
  {
    var eds := Editors(ps);
    assert forall i :: 0 <= i < |eds| ==> Name(eds[i]) == EntryName(ps[i]);
  }

  /** Rows with one short name keep the order their entries had in the catalog. */
  lemma CategoryRowsAreStable(name: string, ps: seq<ChartProperty>, k: string)
    ensures WithKey(Models(NewCategory(name, ps).properties), EntryName, k) == WithKey(ps, EntryName, k)
  {
    ModelsOfEditors(SortBy(ps, EntryName));
    SortByIsStable(ps, EntryName, k);
  }

  /** The categories shown expanded when the dialog opens. */
  predicate ExpandedByDefault(name: string) {
    name == "Histogram" || name == "Scale Options"
  }

  ghost predicate Increasing(ks: seq<string>) {
    forall i, j :: 0 <= i < j < |ks| ==> OrdinalLess(ks[i], ks[j])
  }

  function InsertKey(k: string, ks: seq<string>): (r: seq<string>)
    requires Increasing(ks)
    ensures Increasing(r)
    ensures forall x :: x in r <==> x in ks || x == k
  {
    if |ks| == 0 then [k]
    else if k == ks[0] then ks
    else if OrdinalLessEq(k, ks[0]) then
      var r := [k] + ks;
      assert forall j :: 0 < j < |r| ==> OrdinalLess(k, r[j]) by {
        forall j | 0 < j < |r|
          ensures OrdinalLess(k, r[j])
        {
          assert r[j] == ks[j - 1];
          if j > 1 {
            OrdinalTransitive(k, ks[0], ks[j - 1]);
            if k == ks[j - 1] {
              OrdinalAntisymmetric(k, ks[0]);
            }
          }
        }
      }
      r
    else
      var rest := InsertKey(k, ks[1..]);
      var r := [ks[0]] + rest;
      OrdinalTotal(k, ks[0]);
      assert forall j :: 0 < j < |r| ==> OrdinalLess(ks[0], r[j]) by {
        forall j | 0 < j < |r|
          ensures OrdinalLess(ks[0], r[j])
        {
          assert r[j] == rest[j - 1];
          assert rest[j - 1] in rest;
          if r[j] != k {
            var m :| 0 <= m < |ks[1..]| && ks[1..][m] == r[j];
            assert ks[m + 1] == r[j];
          }
        }
      }
      assert forall i, j :: 0 < i < j < |r| ==> r[i] == rest[i - 1] && r[j] == rest[j - 1];
      r
  }

  /** Some entry of `es` is in category `k`. */
  predicate HasCategory(es: seq<ChartProperty>, k: string) {
    exists e :: e in es && e.category == k
  }

  /** `GroupBy(p => p.Category).OrderBy(g => g.Key)` keys: the distinct category names, ascending. */
  function SortedKeys(es: seq<ChartProperty>): (ks: seq<string>)
    ensures Increasing(ks)
    ensures forall k :: k in ks <==> HasCategory(es, k)
  {
    if |es| == 0 then []
    else
      var rest := SortedKeys(es[1..]);
      assert forall e :: e in es <==> e == es[0] || e in es[1..];
      InsertKey(es[0].category, rest)
  }

  /**
    What the dialog shows for category `c` of catalog `es`: exactly the
    entries of that category, as unchanged rows ordered by short name, under
    the header with their count, expanded iff it is a default-expanded one.
    Rows with one short name keep the order their entries have in the
    catalog, since `OrderBy` is stable.
  */
  ghost predicate GroupOf(es: seq<ChartProperty>, c: Category) {
    && c.isExpanded == ExpandedByDefault(c.name)
    && c.header == Header(c.name, |c.properties|)
    && multiset(Models(c.properties)) == multiset(InCategory(es, c.name))
    && SortedBy(c.properties, Name)
    && (forall k :: WithKey(Models(c.properties), EntryName, k) == WithKey(InCategory(es, c.name), EntryName, k))
    && (forall e :: e in c.properties ==> !HasChanged(e))
  }

  /** One category per key, for the entries in that category. */
  function CategoriesFor(es: seq<ChartProperty>, ks: seq<string>): (cats: seq<Category>)
    ensures |cats| == |ks|
    ensures forall i :: 0 <= i < |ks| ==> cats[i].name == ks[i] && GroupOf(es, cats[i])
  {
    if |ks| == 0 then []
    else
      var c := GroupFor(es, ks[0]);
      var rest := CategoriesFor(es, ks[1..]);
      GroupsCons(es, ks, c, rest);
      [c] + rest
  }

  /** The category for key `k`, expanded when its name asks for it. */
  function GroupFor(es: seq<ChartProperty>, k: string): (c: Category)
    ensures c.name == k && GroupOf(es, c)
  {
    var c := NewCategory(k, InCategory(es, k));
    forall x
      ensures WithKey(Models(c.properties), EntryName, x) == WithKey(InCategory(es, k), EntryName, x)
    {
      CategoryRowsAreStable(k, InCategory(es, k), x);
    }
    c.(isExpanded := ExpandedByDefault(k))
  }

  lemma GroupsCons(es: seq<ChartProperty>, ks: seq<string>, c: Category, rest: seq<Category>)
    requires 0 < |ks| && |rest| == |ks| - 1
    requires c.name == ks[0] && GroupOf(es, c)
    requires forall i :: 0 <= i < |rest| ==> rest[i].name == ks[1..][i] && GroupOf(es, rest[i])
    ensures forall i :: 0 <= i < |ks| ==> ([c] + rest)[i].name == ks[i] && GroupOf(es, ([c] + rest)[i])
  {
    forall i | 0 < i < |ks|
      ensures ([c] + rest)[i].name == ks[i] && GroupOf(es, ([c] + rest)[i])
    {
      assert ks[i] == ks[1..][i - 1];
      assert ([c] + rest)[i] == rest[i - 1];
    }
  }

  lemma NonEmptyGroups(es: seq<ChartProperty>, ks: seq<string>)
    requires forall k :: k in ks ==> HasCategory(es, k)
    ensures forall i :: 0 <= i < |ks| ==> 0 < |InCategory(es, ks[i])|
  {
    forall i | 0 <= i < |ks|
      ensures 0 < |InCategory(es, ks[i])|
    {
      assert ks[i] in ks;
      var e :| e in es && e.category == ks[i];
      assert e in InCategory(es, ks[i]);
    }
  }

  lemma GroupSizes(es: seq<ChartProperty>, ks: seq<string>)
    ensures forall i :: 0 <= i < |ks| ==>
      |CategoriesFor(es, ks)[i].properties| == |InCategory(es, ks[i])|
  {
    var cats := CategoriesFor(es, ks);
    forall i | 0 <= i < |ks|
      ensures |cats[i].properties| == |InCategory(es, ks[i])|
    {
      assert GroupOf(es, cats[i]);
      assert |Models(cats[i].properties)| == |multiset(Models(cats[i].properties))|;
    }
  }

  lemma NamesCoverCategories(es: seq<ChartProperty>, ks: seq<string>, cats: seq<Category>)
    requires |cats| == |ks| && forall i :: 0 <= i < |ks| ==> cats[i].name == ks[i]
    requires forall k :: k in ks <==> HasCategory(es, k)
    ensures forall e :: e in es ==> exists i :: 0 <= i < |cats| && cats[i].name == e.category
    ensures forall i :: 0 <= i < |cats| ==> HasCategory(es, cats[i].name)
  {
    forall e | e in es
      ensures exists i :: 0 <= i < |cats| && cats[i].name == e.category
    {
      assert e.category in ks;
      var i :| 0 <= i < |ks| && ks[i] == e.category;
      assert cats[i].name == e.category;
    }
    forall i | 0 <= i < |cats|
      ensures HasCategory(es, cats[i].name)
    {
      assert ks[i] in ks;
      var e :| e in es && e.category == ks[i];
      assert e.category == cats[i].name;
    }
  }

  lemma CategoriesForNonEmpty(es: seq<ChartProperty>, ks: seq<string>)
    requires forall k :: k in ks ==> HasCategory(es, k)
    ensures forall i :: 0 <= i < |ks| ==> 0 < |CategoriesFor(es, ks)[i].properties|
  {
    NonEmptyGroups(es, ks);
    GroupSizes(es, ks);
  }

  /**
    `LoadProperties`: one category per distinct category name, in ascending
    ordinal order; each holds exactly the entries of that category (at least
    one), as fresh rows sorted by short name, under the header
    "<name> (<n> properties)"; only "Histogram" and "Scale Options" start
    expanded.
  */
  function LoadProperties(es: seq<ChartProperty>): (cats: seq<Category>)
    ensures forall i, j :: 0 <= i < j < |cats| ==> OrdinalLess(cats[i].name, cats[j].name)
    ensures forall e :: e in es ==> exists i :: 0 <= i < |cats| && cats[i].name == e.category
    ensures forall i :: 0 <= i < |cats| ==> HasCategory(es, cats[i].name)
    ensures forall i :: 0 <= i < |cats| ==> 0 < |cats[i].properties| && GroupOf(es, cats[i])
  {
    var ks := SortedKeys(es);
    var cats := CategoriesFor(es, ks);
    NamesCoverCategories(es, ks, cats);
    CategoriesForNonEmpty(es, ks);
    cats
  }

  /** The rows of all categories, in display order. */
  function AllEditors(cats: seq<Category>): seq<PropertyEditor> {
    if |cats| == 0 then [] else cats[0].properties + AllEditors(cats[1..])
  }

  /** The entries of the categories named by `ks`, counted with multiplicity. */
  ghost function GroupsMs(es: seq<ChartProperty>, ks: seq<string>): multiset<ChartProperty> {
    if |ks| == 0 then multiset{} else multiset(InCategory(es, ks[0])) + GroupsMs(es, ks[1..])
  }

  lemma {:induction false} GroupsMsOfCons(x: ChartProperty, rest: seq<ChartProperty>, ks: seq<string>)
    requires forall i, j :: 0 <= i < j < |ks| ==> ks[i] != ks[j]
    ensures GroupsMs([x] + rest, ks) == (if x.category in ks then multiset{x} else multiset{}) + GroupsMs(rest, ks)
  {
    if |ks| > 0 {
      assert ([x] + rest)[1..] == rest;
      GroupsMsOfCons(x, rest, ks[1..]);
      if x.category == ks[0] {
        assert x.category !in ks[1..];
      }
    }
  }

  lemma {:induction false} GroupsMsOfEmpty(ks: seq<string>)
    ensures GroupsMs([], ks) == multiset{}
  {
    if |ks| > 0 {
      GroupsMsOfEmpty(ks[1..]);
    }
  }

  /** Grouping by distinct keys that cover every category loses and duplicates nothing. */
  lemma {:induction false} GroupsMsCoversAll(es: seq<ChartProperty>, ks: seq<string>)
    requires forall i, j :: 0 <= i < j < |ks| ==> ks[i] != ks[j]
    requires forall e :: e in es ==> e.category in ks
    ensures GroupsMs(es, ks) == multiset(es)
  {
    if |es| == 0 {
      GroupsMsOfEmpty(ks);
    } else {
      assert es == [es[0]] + es[1..];
      assert es[0] in es;
      GroupsMsCoversAll(es[1..], ks);
      GroupsMsOfCons(es[0], es[1..], ks);
    }
  }

  lemma {:induction false} CategoriesForMs(es: seq<ChartProperty>, ks: seq<string>)
    ensures multiset(Models(AllEditors(CategoriesFor(es, ks)))) == GroupsMs(es, ks)
  {
    if |ks| > 0 {
      var cats := CategoriesFor(es, ks);
      assert cats[1..] == CategoriesFor(es, ks[1..]);
      CategoriesForMs(es, ks[1..]);
      ModelsOfJoin(cats[0].properties, AllEditors(cats[1..]));
    }
  }

  /** The rows of all categories, read back as entries, are a permutation of the catalog. */
  lemma LoadPropertiesIsPermutation(es: seq<ChartProperty>)
    ensures multiset(Models(AllEditors(LoadProperties(es)))) == multiset(es)
  {
    var ks := SortedKeys(es);
    CategoriesForMs(es, ks);
    assert forall e :: e in es ==> e.category in ks;
    GroupsMsCoversAll(es, ks);
  }
}

=== FILE: chart_graph.dfy ===
/**
  The chart configuration graph the property sheet walks: chart control,
  diagram, the X and Y axes with their numeric scale options, and the
  series. Every node carries a field-descriptor table in place of the
  reflected property list, and the values its getters return; a field
  whose getter throws has no entry in `values`.
*/
module ChartGraph {
  import opened Optional
  import opened Clr

  /** One public property as reflection reports it. `description` is the `[Description]` text, if the property has one. */
  datatype FieldDescriptor = FieldDescriptor(
    name: string,
    fieldType: ClrType,
    canRead: bool,
    canWrite: bool,
    description: Option<string>)

  /** A configuration object: its runtime type name, its property table and the values its getters return. */
  datatype Node = Node(typeName: string, table: seq<FieldDescriptor>, values: map<string, Value>)

  /** The runtime class of a numeric scale options object. */
  datatype ScaleKind = CountInterval | Continuous | OtherScale

  datatype ScaleOptions = ScaleOptions(kind: ScaleKind, node: Node)

  /** An axis and its `NumericScaleOptions`, which may be null. */
  datatype Axis = Axis(node: Node, scale: Option<ScaleOptions>)

  /** A series; `pointCount` is `Points.Count`. */
  datatype Series = Series(node: Node, pointCount: nat)

  datatype Diagram =
    | XYDiagram2D(node: Node, axisX: Option<Axis>, axisY: Option<Axis>, series: seq<Series>)
    | OtherDiagram(node: Node)

  /** The chart control; its `Diagram` may be null. */
  datatype Chart = Chart(node: Node, diagram: Option<Diagram>)

  /** Where a node sits in the graph: the stand-in for an object reference held by a catalog entry. */
  datatype NodeRef =
    | ChartRef
    | DiagramRef
    | AxisXRef
    | AxisXScaleRef
    | AxisYRef
    | AxisYScaleRef
    | SeriesRef(index: nat)

  /** What a null-checked getter chain reaches: the axis of an XY diagram, or null. */
  function AxisOf(c: Chart, x: bool): Option<Axis> {
    if c.diagram.Some? && c.diagram.value.XYDiagram2D? then
      (if x then c.diagram.value.axisX else c.diagram.value.axisY)
    else None
  }

  function ScaleNodeOf(a: Option<Axis>): Option<Node> {
    if a.Some? && a.value.scale.Some? then Some(a.value.scale.value.node) else None
  }

  function AxisNodeOf(a: Option<Axis>): Option<Node> {
    if a.Some? then Some(a.value.node) else None
  }

  /** The node a reference designates, or None when that part of the graph is null. */
  function NodeAt(c: Chart, r: NodeRef): Option<Node> {
    match r
    case ChartRef => Some(c.node)
    case DiagramRef => if c.diagram.Some? then Some(c.diagram.value.node) else None
    case AxisXRef => AxisNodeOf(AxisOf(c, true))
    case AxisXScaleRef => ScaleNodeOf(AxisOf(c, true))
    case AxisYRef => AxisNodeOf(AxisOf(c, false))
    case AxisYScaleRef => ScaleNodeOf(AxisOf(c, false))
    case SeriesRef(i) =>
      if c.diagram.Some? && c.diagram.value.XYDiagram2D? && i < |c.diagram.value.series| then
        Some(c.diagram.value.series[i].node)
      else None
  }

  function PutAxisNode(a: Option<Axis>, n: Node): Option<Axis> {
    if a.Some? then Some(a.value.(node := n)) else a
  }

  function PutScaleNode(a: Option<Axis>, n: Node): Option<Axis> {
    if a.Some? && a.value.scale.Some? then Some(a.value.(scale := Some(a.value.scale.value.(node := n)))) else a
  }

  /** Replaces the node an axis, scale or series reference designates inside an XY diagram. */
  function PutInXYDiagram(d: Diagram, r: NodeRef, n: Node): Diagram
    requires d.XYDiagram2D?
  {
    match r
    case AxisXRef => d.(axisX := PutAxisNode(d.axisX, n))
    case AxisXScaleRef => d.(axisX := PutScaleNode(d.axisX, n))
    case AxisYRef => d.(axisY := PutAxisNode(d.axisY, n))
    case AxisYScaleRef => d.(axisY := PutScaleNode(d.axisY, n))
    case SeriesRef(i) => if i < |d.series| then d.(series := d.series[i := d.series[i].(node := n)]) else d
    case _ => d
  }

  /** Replaces the node at `r`; a null position stays null. */
  function PutNode(c: Chart, r: NodeRef, n: Node): (c': Chart)
    ensures NodeAt(c, r).Some? ==> NodeAt(c', r) == Some(n)
    ensures NodeAt(c, r).None? ==> c' == c
    ensures forall r' :: r' != r ==> NodeAt(c', r') == NodeAt(c, r')
  {
    if r.ChartRef? then c.(node := n)
    else if c.diagram.None? then c
    else if r.DiagramRef? then c.(diagram := Some(c.diagram.value.(node := n)))
    else if c.diagram.value.XYDiagram2D? then c.(diagram := Some(PutInXYDiagram(c.diagram.value, r, n)))
    else c
  }

  /** A node with its values forgotten: what reflection can know about it without calling a getter. */
  function Erase(n: Node): Node {
    n.(values := map[])
  }

  function EraseAxis(a: Option<Axis>): Option<Axis> {
    if a.None? then None
    else
      var s := a.value.scale;
      Some(Axis(Erase(a.value.node), if s.Some? then Some(s.value.(node := Erase(s.value.node))) else None))
  }

  function EraseSeries(ss: seq<Series>): (r: seq<Series>)
    ensures |r| == |ss|
    ensures forall i :: 0 <= i < |ss| ==> r[i] == ss[i].(node := Erase(ss[i].node))
  {
    if |ss| == 0 then [] else [ss[0].(node := Erase(ss[0].node))] + EraseSeries(ss[1..])
  }

  /** The graph's shape: which nodes exist, their classes and property tables, but no field values. */
  function Skeleton(c: Chart): Chart {
    var d := if c.diagram.None? then None
      else match c.diagram.value
        case OtherDiagram(n) => Some(OtherDiagram(Erase(n)))
        case XYDiagram2D(n, ax, ay, ss) => Some(XYDiagram2D(Erase(n), EraseAxis(ax), EraseAxis(ay), EraseSeries(ss)));
    Chart(Erase(c.node), d)
  }

  /** A reference designates a node in the skeleton exactly when it does in the graph, and it is that node with its values erased. */
  lemma SkeletonNodeAt(c: Chart, r: NodeRef)
    ensures NodeAt(Skeleton(c), r).Some? <==> NodeAt(c, r).Some?
    ensures NodeAt(c, r).Some? ==> NodeAt(Skeleton(c), r).value == Erase(NodeAt(c, r).value)
  {
  }

  /** Replacing a node by one of the same class and table keeps the graph's shape. */
  lemma PutNodeKeepsSkeleton(c: Chart, r: NodeRef, n: Node)
    requires NodeAt(c, r).Some?
    requires Erase(n) == Erase(NodeAt(c, r).value)
    ensures Skeleton(PutNode(c, r, n)) == Skeleton(c)
  {
    if r.SeriesRef? {
      var ss := c.diagram.value.series;
      EraseSeriesUpdate(ss, r.index, n);
    }
  }

  lemma EraseSeriesUpdate(ss: seq<Series>, i: nat, n: Node)
    requires i < |ss|
    requires Erase(n) == Erase(ss[i].node)
    ensures EraseSeries(ss[i := ss[i].(node := n)]) == EraseSeries(ss)
  {
    var ss' := ss[i := ss[i].(node := n)];
    assert forall j :: 0 <= j < |ss| ==> EraseSeries(ss')[j] == EraseSeries(ss)[j];
  }

  /** The first property named `name` (`Type.GetProperty(name)`), or None. */
  function FindField(table: seq<FieldDescriptor>, name: string): (r: Option<FieldDescriptor>)
    ensures r.Some? ==> r.value in table && r.value.name == name
    ensures r.None? ==> forall d :: d in table ==> d.name != name
  {
    if |table| == 0 then None
    else if table[0].name == name then Some(table[0])
    else FindField(table[1..], name)
  }

  /** A property setter that may throw for a value it dislikes (an argument check inside the charting library). */
  type SetterPolicy = (NodeRef, string, Value) -> bool

  /**
    Whether `PropertyInfo.SetValue(target, v)` would return normally: the
    target exists, has a writable property of that name, the property's
    type accepts `v` and the setter does not object to the value stored.
  */
  predicate Settable(c: Chart, r: NodeRef, field: string, v: Value, policy: SetterPolicy) {
    && NodeAt(c, r).Some?
    && var fd := FindField(NodeAt(c, r).value.table, field);
    && fd.Some?
    && fd.value.canWrite
    && AcceptsValue(fd.value.fieldType, v)
    && policy(r, field, StoredValue(fd.value.fieldType, v))
  }

  /** Whether a write can succeed depends on the graph's shape only, never on the values it currently holds. */
  lemma SettableDependsOnShape(c: Chart, r: NodeRef, field: string, v: Value, policy: SetterPolicy)
    ensures Settable(c, r, field, v, policy) == Settable(Skeleton(c), r, field, v, policy)
  {
    SkeletonNodeAt(c, r);
  }

  /**
    `PropertyInfo.SetValue`: on success the one field of the one node holds
    the stored value, and every other field and node is as before. On
    failure (an exception in the source) nothing is written.
  */
  function SetField(c: Chart, r: NodeRef, field: string, v: Value, policy: SetterPolicy): (res: Option<Chart>)
    ensures res.Some? <==> Settable(c, r, field, v, policy)
    ensures res.Some? ==>
      var n := NodeAt(c, r).value;
      var fd := FindField(n.table, field).value;
      && NodeAt(res.value, r) == Some(n.(values := n.values[field := StoredValue(fd.fieldType, v)]))
      && (forall r' :: r' != r ==> NodeAt(res.value, r') == NodeAt(c, r'))
      && Skeleton(res.value) == Skeleton(c)
  {
    if Settable(c, r, field, v, policy) then
      var n := NodeAt(c, r).value;
      var fd := FindField(n.table, field).value;
      var n' := n.(values := n.values[field := StoredValue(fd.fieldType, v)]);
      PutNodeKeepsSkeleton(c, r, n');
      Some(PutNode(c, r, n'))
    else None
  }

  /** The value a field's getter returns, or None when it throws. */
  function ReadField(c: Chart, r: NodeRef, field: string): Option<Value> {
    if NodeAt(c, r).Some? && field in NodeAt(c, r).value.values then Some(NodeAt(c, r).value.values[field]) else None
  }
}

=== FILE: chart_property.dfy ===
/** One catalog entry of the property sheet (the `ChartProperty` record). */
module ChartPropertyModel {
  import opened Clr
  import opened ChartGraph

  /**
    `target` and `field` stand for the entry's `Target` object and
    `PropertyInfo`; `propertyType` is the type the editor converts to, which
    for a synthetic entry may differ from the type of the field it writes.
  */
  datatype ChartProperty = ChartProperty(
    name: string,
    category: string,
    value: Value,
    propertyType: ClrType,
    target: NodeRef,
    field: string,
    description: string)

  /** The entries of `es` whose category is `k`, in their original order (one group of `GroupBy`). */
  function InCategory(es: seq<ChartProperty>, k: string): (r: seq<ChartProperty>)
    ensures |r| <= |es|
    ensures forall e :: e in r ==> e in es && e.category == k
    ensures forall e :: e in es && e.category == k ==> e in r
  {
    if |es| == 0 then []
    else (if es[0].category == k then [es[0]] else []) + InCategory(es[1..], k)
  }

  lemma {:induction false} InCategoryOfJoin(a: seq<ChartProperty>, b: seq<ChartProperty>, k: string)
    ensures InCategory(a + b, k) == InCategory(a, k) + InCategory(b, k)
  {
    if |a| > 0 {
      assert (a + b)[1..] == a[1..] + b;
      InCategoryOfJoin(a[1..], b, k);
    } else {
      assert a + b == b;
    }
  }

  lemma {:induction false} InCategoryOfNone(es: seq<ChartProperty>, k: string)
    requires forall e :: e in es ==> e.category != k
    ensures InCategory(es, k) == []
  {
    if |es| > 0 {
      assert es[0] in es;
      InCategoryOfNone(es[1..], k);
    }
  }

  lemma {:induction false} InCategoryOfAll(es: seq<ChartProperty>, k: string)
    requires forall e :: e in es ==> e.category == k
    ensures InCategory(es, k) == es
  {
    if |es| > 0 {
      assert es[0] in es;
      InCategoryOfAll(es[1..], k);
      assert es == [es[0]] + es[1..];
    }
  }
}

=== FILE: clr.dfy ===
/**
  The slice of the .NET type system the property sheet touches: declared
  property types, boxed values, `default(T)`, what reflection's setter
  accepts, and the `Convert.To*` family the editor uses at commit time.
*/
module Clr {
  import opened Optional
  import opened Text

  /** A `double`, kept opaque: two codes are equal exactly when `Double.Equals` holds. */
  datatype Real64 = Real64(code: int)

  /** A `float`, kept opaque in the same way. */
  datatype Real32 = Real32(code: int)

  const PositiveZero64: Real64 := Real64(0)
  const PositiveZero32: Real32 := Real32(0)

  const Int32Min: int := -0x8000_0000
  const Int32Max: int := 0x7FFF_FFFF

  predicate InInt32Range(n: int) {
    Int32Min <= n <= Int32Max
  }

  /**
    A declared property type. `EnumType.members` lists the enum's values in
    the order `Enum.GetValues` returns them. `GenericType` stands for every
    constructed generic type other than `Nullable<T>`; `StructType` and
    `ClassType` for every other value and reference type.
  */
  datatype ClrType =
    | StringType
    | Int32Type
    | DoubleType
    | SingleType
    | BooleanType
    | EnumType(enumName: string, members: seq<int>)
    | NullableOf(arg: ClrType)
    | GenericType(genericName: string)
    | StructType(structName: string)
    | ClassType(className: string)

  /** `Type.IsGenericType`. */
  predicate IsGeneric(t: ClrType) {
    t.NullableOf? || t.GenericType?
  }

  predicate IsNonNullableValueType(t: ClrType) {
    t.Int32Type? || t.DoubleType? || t.SingleType? || t.BooleanType? || t.EnumType? || t.StructType?
  }

  /** The types C# lets one write: `Nullable<T>` only around a non-nullable value type. */
  predicate WellFormed(t: ClrType) {
    t.NullableOf? ==> IsNonNullableValueType(t.arg)
  }

  /** `Nullable.GetUnderlyingType(t) ?? t`: strips one `Nullable<>` layer, if there is one. */
  function UnderlyingType(t: ClrType): (u: ClrType)
    ensures u == t || t == NullableOf(u)
    ensures WellFormed(t) ==> !u.NullableOf?
  {
    if t.NullableOf? then t.arg else t
  }

  /** The editor families of the property sheet. */
  datatype EditorKind = TextKind | IntegerKind | FloatingKind | BooleanKind | EnumerationKind

  /** Which family an (already unwrapped) type belongs to, if any. */
  function KindOf(t: ClrType): Option<EditorKind> {
    match t
    case StringType => Some(TextKind)
    case Int32Type => Some(IntegerKind)
    case DoubleType => Some(FloatingKind)
    case SingleType => Some(FloatingKind)
    case BooleanType => Some(BooleanKind)
    case EnumType(_, _) => Some(EnumerationKind)
    case _ => None
  }

  /**
    The catalog's field filter: text, `int`, `double`, `float`, `bool` or an
    enum, or the nullable form of any of the value types among them.
  */
  predicate IsEditable(t: ClrType)
    ensures WellFormed(t) ==> (IsEditable(t) <==> KindOf(UnderlyingType(t)).Some?)
    ensures IsEditable(t) ==> WellFormed(t)
  {
    || t == StringType
    || t == Int32Type || t == NullableOf(Int32Type)
    || t == DoubleType || t == NullableOf(DoubleType)
    || t == SingleType || t == NullableOf(SingleType)
    || t == BooleanType || t == NullableOf(BooleanType)
    || t.EnumType?
    || (t.NullableOf? && t.arg.EnumType?)
  }

  /** A boxed runtime value (`object`), or null. */
  datatype Value =
    | Null
    | Text(s: string)
    | Int32(i: int)
    | Double(d: Real64)
    | Single(f: Real32)
    | Boolean(b: bool)
    | EnumMember(enumName: string, value: int)
    | Boxed(typeName: string, id: nat)

  /** `v` is a non-null instance of exactly the type `t`. */
  predicate InstanceOf(v: Value, t: ClrType) {
    match v
    case Null => false
    case Text(_) => t == StringType
    case Int32(_) => t == Int32Type
    case Double(_) => t == DoubleType
    case Single(_) => t == SingleType
    case Boolean(_) => t == BooleanType
    case EnumMember(n, _) => t.EnumType? && t.enumName == n
    case Boxed(n, _) => t == StructType(n) || t == ClassType(n) || t == GenericType(n)
  }

  /** `default(T)` boxed; null for reference and nullable types. */
  function DefaultOf(t: ClrType): (v: Value)
    ensures IsNonNullableValueType(t) ==> InstanceOf(v, t)
    ensures !IsNonNullableValueType(t) ==> v == Null
  {
    match t
    case Int32Type => Int32(0)
    case DoubleType => Double(PositiveZero64)
    case SingleType => Single(PositiveZero32)
    case BooleanType => Boolean(false)
    case EnumType(n, _) => EnumMember(n, 0)
    case StructType(n) => Boxed(n, 0)
    case _ => Null
  }

  /**
    Whether `PropertyInfo.SetValue` accepts `v` for a property of type `t`
    rather than throwing: null always, otherwise an instance of `t` or, for
    `Nullable<T>`, of `T`.
  */
  predicate AcceptsValue(t: ClrType, v: Value) {
    v.Null? || InstanceOf(v, t) || (t.NullableOf? && InstanceOf(v, t.arg))
  }

  /** What the property holds after `SetValue(v)`: reflection passes `default(T)` for a null given to a non-nullable value type. */
  function StoredValue(t: ClrType, v: Value): (r: Value)
    requires AcceptsValue(t, v)
    ensures v.Null? && IsNonNullableValueType(t) ==> InstanceOf(r, t)
    ensures !(v.Null? && IsNonNullableValueType(t)) ==> r == v
  {
    if v.Null? && IsNonNullableValueType(t) then DefaultOf(t) else v
  }

  /**
    The culture-dependent and floating-point parts of `Convert`, which the
    model leaves uninterpreted. Each parse reports success with a value or
    failure (`FormatException`); `parseInt` reports the mathematical value,
    so the `OverflowException` range check stays explicit.
  */
  datatype Conversions = Conversions(
    parseInt: string -> Option<int>,
    parseDouble: string -> Option<Real64>,
    parseSingle: string -> Option<Real32>,
    realToInt: Real64 -> Option<int>,
    singleToDouble: Real32 -> Real64,
    doubleToSingle: Real64 -> Real32,
    intToDouble: int -> Real64,
    isZero: Real64 -> bool)

  /** Every .NET parse rejects the empty string. */
  predicate RejectsEmptyText(c: Conversions) {
    c.parseInt("") == None && c.parseDouble("") == None && c.parseSingle("") == None
  }

  function Int32If(n: Option<int>): (r: Option<Value>)
    ensures r.Some? ==> r.value.Int32? && InInt32Range(r.value.i)
  {
    if n.Some? && InInt32Range(n.value) then Some(Int32(n.value)) else None
  }

  /** `Convert.ToInt32(object)`. */
  function ToInt32(c: Conversions, v: Value): (r: Option<Value>)
    ensures r.Some? ==> InstanceOf(r.value, Int32Type)
    ensures v.Null? ==> r == Some(Int32(0))
    ensures v.Int32? ==> r == Some(v)
    ensures v.Boxed? ==> r == None
    ensures v.Text? ==> (r.Some? <==> c.parseInt(v.s).Some? && InInt32Range(c.parseInt(v.s).value))
    ensures v.Text? && r.Some? ==> r.value == Int32(c.parseInt(v.s).value)
    ensures v.Boolean? ==> r == Some(Int32(if v.b then 1 else 0))
    ensures v.EnumMember? ==> (r.Some? <==> InInt32Range(v.value)) && (r.Some? ==> r.value == Int32(v.value))
  {
    match v
    case Null => Some(Int32(0))
    case Text(s) => Int32If(c.parseInt(s))
    case Int32(_) => Some(v)
    case Double(d) => Int32If(c.realToInt(d))
    case Single(f) => Int32If(c.realToInt(c.singleToDouble(f)))
    case Boolean(b) => Some(Int32(if b then 1 else 0))
    case EnumMember(_, o) => Int32If(Some(o))
    case Boxed(_, _) => None
  }

  /** `Convert.ToDouble(object)`. */
  function ToDouble(c: Conversions, v: Value): (r: Option<Value>)
    ensures r.Some? ==> InstanceOf(r.value, DoubleType)
    ensures v.Null? ==> r == Some(Double(PositiveZero64))
    ensures v.Double? ==> r == Some(v)
    ensures v.Boxed? ==> r == None
    ensures v.Text? ==> (r.Some? <==> c.parseDouble(v.s).Some?)
    ensures v.Text? && r.Some? ==> r.value == Double(c.parseDouble(v.s).value)
    ensures v.Int32? ==> r == Some(Double(c.intToDouble(v.i)))
  {
    match v
    case Null => Some(Double(PositiveZero64))
    case Text(s) => if c.parseDouble(s).Some? then Some(Double(c.parseDouble(s).value)) else None
    case Int32(i) => Some(Double(c.intToDouble(i)))
    case Double(_) => Some(v)
    case Single(f) => Some(Double(c.singleToDouble(f)))
    case Boolean(b) => Some(Double(c.intToDouble(if b then 1 else 0)))
    case EnumMember(_, o) => Some(Double(c.intToDouble(o)))
    case Boxed(_, _) => None
  }

  /** `Convert.ToSingle(object)`. */
  function ToSingle(c: Conversions, v: Value): (r: Option<Value>)
    ensures r.Some? ==> InstanceOf(r.value, SingleType)
    ensures v.Null? ==> r == Some(Single(PositiveZero32))
    ensures v.Single? ==> r == Some(v)
    ensures v.Boxed? ==> r == None
    ensures v.Text? ==> (r.Some? <==> c.parseSingle(v.s).Some?)
    ensures v.Text? && r.Some? ==> r.value == Single(c.parseSingle(v.s).value)
    ensures v.Double? ==> r == Some(Single(c.doubleToSingle(v.d)))
  {
    match v
    case Null => Some(Single(PositiveZero32))
    case Text(s) => if c.parseSingle(s).Some? then Some(Single(c.parseSingle(s).value)) else None
    case Int32(i) => Some(Single(c.doubleToSingle(c.intToDouble(i))))
    case Double(d) => Some(Single(c.doubleToSingle(d)))
    case Single(_) => Some(v)
    case Boolean(b) => Some(Single(c.doubleToSingle(c.intToDouble(if b then 1 else 0))))
    case EnumMember(_, o) => Some(Single(c.doubleToSingle(c.intToDouble(o))))
    case Boxed(_, _) => None
  }

  /** ASCII case-insensitive equality, as `StringComparison.OrdinalIgnoreCase` treats these words. */
  predicate EqualsIgnoreCase(a: string, b: string) {
    |a| == |b| && forall i :: 0 <= i < |a| ==> Lower(a[i]) == Lower(b[i])
  }

  function Lower(c: char): char {
    if 'A' <= c <= 'Z' then (c as int + 32) as char else c
  }

  /** The characters `bool.Parse` strips from both ends: white space and U+0000. */
  predicate IsWhiteSpaceOrNull(c: char) {
    IsWhiteSpace(c) || c == '\0'
  }

  /** The length of the longest prefix of `s` made of white space and U+0000. */
  function LeadingPadding(s: string): (n: nat)
    ensures n <= |s|
    ensures forall i :: 0 <= i < n ==> IsWhiteSpaceOrNull(s[i])
    ensures n < |s| ==> !IsWhiteSpaceOrNull(s[n])
  {
    if |s| > 0 && IsWhiteSpaceOrNull(s[0]) then 1 + LeadingPadding(s[1..]) else 0
  }

  /** The length of the longest suffix of `s` made of white space and U+0000. */
  function TrailingPadding(s: string): (n: nat)
    ensures n <= |s|
    ensures forall i :: |s| - n <= i < |s| ==> IsWhiteSpaceOrNull(s[i])
    ensures n < |s| ==> !IsWhiteSpaceOrNull(s[|s| - n - 1])
  {
    if |s| > 0 && IsWhiteSpaceOrNull(s[|s| - 1]) then 1 + TrailingPadding(s[..|s| - 1]) else 0
  }

  /** `TrimWhiteSpaceAndNull` of `bool.Parse`: `s` without its padding at either end. */
  function TrimWhiteSpaceAndNull(s: string): (r: string)
    ensures |r| == 0 || (!IsWhiteSpaceOrNull(r[0]) && !IsWhiteSpaceOrNull(r[|r| - 1]))
    ensures LeadingPadding(s) + |r| <= |s| && r == s[LeadingPadding(s)..LeadingPadding(s) + |r|]
    ensures forall i :: LeadingPadding(s) + |r| <= i < |s| ==> IsWhiteSpaceOrNull(s[i])
  {
    var l := LeadingPadding(s);
    if l == |s| then []
    else
      var t := TrailingPadding(s);
      assert l < |s| - t;
      s[l..|s| - t]
  }

  /** Padding a word whose ends are not padding, on either side, is undone by the trim. */
  lemma TrimOfPadded(p: string, w: string, q: string)
    requires forall i :: 0 <= i < |p| ==> IsWhiteSpaceOrNull(p[i])
    requires forall i :: 0 <= i < |q| ==> IsWhiteSpaceOrNull(q[i])
    requires |w| > 0 && !IsWhiteSpaceOrNull(w[0]) && !IsWhiteSpaceOrNull(w[|w| - 1])
    ensures TrimWhiteSpaceAndNull(p + w + q) == w
  {
    var s := p + w + q;
    assert forall i :: 0 <= i < |p| ==> s[i] == p[i];
    assert s[|p|] == w[0];
    assert LeadingPadding(s) == |p|;
    assert forall i :: |p| + |w| <= i < |s| ==> s[i] == q[i - |p| - |w|];
    assert s[|p| + |w| - 1] == w[|w| - 1];
    assert TrailingPadding(s) == |q|;
    assert s[|p|..|s| - |q|] == w;
  }

  /** `bool.Parse`: "True" or "False" in any letter case, surrounded by any white space and U+0000 characters. */
  function ParseBoolean(s: string): (r: Option<bool>)
    ensures r == Some(true) ==> EqualsIgnoreCase(TrimWhiteSpaceAndNull(s), "True")
    ensures r == Some(false) ==> EqualsIgnoreCase(TrimWhiteSpaceAndNull(s), "False")
    ensures r == None ==> !EqualsIgnoreCase(TrimWhiteSpaceAndNull(s), "True") && !EqualsIgnoreCase(TrimWhiteSpaceAndNull(s), "False")
  {
    var t := TrimWhiteSpaceAndNull(s);
    if EqualsIgnoreCase(t, "True") then Some(true)
    else if EqualsIgnoreCase(t, "False") then Some(false)
    else None
  }

  /** Padding text with white space and U+0000 does not change what `bool.Parse` reads from it: "True\0" reads as true. */
  lemma ParseBooleanIgnoresPadding(p: string, w: string, q: string)
    requires forall i :: 0 <= i < |p| ==> IsWhiteSpaceOrNull(p[i])
    requires forall i :: 0 <= i < |q| ==> IsWhiteSpaceOrNull(q[i])
    requires |w| > 0 && !IsWhiteSpaceOrNull(w[0]) && !IsWhiteSpaceOrNull(w[|w| - 1])
    ensures ParseBoolean(p + w + q) == ParseBoolean(w)
  {
    TrimOfPadded(p, w, q);
    TrimOfPadded([], w, []);
    assert [] + w + [] == w;
  }

  /** `Convert.ToBoolean(object)`. */
  function ToBoolean(c: Conversions, v: Value): (r: Option<Value>)
    ensures r.Some? ==> InstanceOf(r.value, BooleanType)
    ensures v.Null? ==> r == Some(Boolean(false))
    ensures v.Boolean? ==> r == Some(v)
    ensures v.Boxed? ==> r == None
    ensures v.Text? ==> (r == Some(Boolean(true)) <==> EqualsIgnoreCase(TrimWhiteSpaceAndNull(v.s), "True"))
    ensures v.Text? ==> (r == Some(Boolean(false)) <==>
      !EqualsIgnoreCase(TrimWhiteSpaceAndNull(v.s), "True") && EqualsIgnoreCase(TrimWhiteSpaceAndNull(v.s), "False"))
    ensures v.Int32? ==> r == Some(Boolean(v.i != 0))
  {
    match v
    case Null => Some(Boolean(false))
    case Text(s) => if ParseBoolean(s).Some? then Some(Boolean(ParseBoolean(s).value)) else None
    case Int32(i) => Some(Boolean(i != 0))
    case Double(d) => Some(Boolean(!c.isZero(d)))
    case Single(f) => Some(Boolean(!c.isZero(c.singleToDouble(f))))
    case Boolean(_) => Some(v)
    case EnumMember(_, o) => Some(Boolean(o != 0))
    case Boxed(_, _) => None
  }
}

=== FILE: commit.dfy ===
/**
  The dialog's "Apply": every row of every category, in display order, is
  committed against the one chart graph, the successful writes are counted
  and the chart is asked to refresh.
*/
module Commit {
  import opened Optional
  import opened Clr
  import opened ChartGraph
  import opened ChartPropertyModel
  import opened PropertyEditors
  import opened Categories

  datatype CommitResult = CommitResult(editors: seq<PropertyEditor>, graph: Chart, outcomes: seq<bool>)

  /**
    Committing rows one after another, each against the graph the previous
    ones left. Whether a row is written depends only on the row and on the
    graph's shape, which no write changes; a row that is not written is left
    as it was, one that is written caches its converted value.
  */
  function CommitEditors(eds: seq<PropertyEditor>, g: Chart, env: Env): (r: CommitResult)
    ensures |r.editors| == |eds| && |r.outcomes| == |eds|
    ensures Skeleton(r.graph) == Skeleton(g)
    ensures forall i :: 0 <= i < |eds| ==> Committed(eds[i], r.editors[i], r.outcomes[i], Skeleton(g), env)
    ensures (forall i :: 0 <= i < |eds| ==> !r.outcomes[i]) ==> r.graph == g
  {
    if |eds| == 0 then CommitResult([], g, [])
    else
      var a := ApplyChanges(eds[0], g, env);
      var rest := CommitEditors(eds[1..], a.graph, env);
      ApplyIsCommitted(eds[0], g, env);
      CommittedCons(eds, a.editor, a.ok, rest.editors, rest.outcomes, Skeleton(g), env);
      NoneWrittenCons(a.ok, rest.outcomes);
      CommitResult([a.editor] + rest.editors, rest.graph, [a.ok] + rest.outcomes)
  }

  lemma CommittedCons(eds: seq<PropertyEditor>, e': PropertyEditor, ok: bool, es': seq<PropertyEditor>, os: seq<bool>, shape: Chart, env: Env)
    requires 0 < |eds| && |es'| == |eds| - 1 && |os| == |eds| - 1
    requires Committed(eds[0], e', ok, shape, env)
    requires forall i :: 0 <= i < |eds| - 1 ==> Committed(eds[1..][i], es'[i], os[i], shape, env)
    ensures forall i :: 0 <= i < |eds| ==> Committed(eds[i], ([e'] + es')[i], ([ok] + os)[i], shape, env)
  {
    forall i | 0 < i < |eds|
      ensures Committed(eds[i], ([e'] + es')[i], ([ok] + os)[i], shape, env)
    {
      assert eds[i] == eds[1..][i - 1];
    }
  }

  lemma NoneWrittenCons(ok: bool, os: seq<bool>)
    ensures (forall i :: 0 <= i < |os| + 1 ==> !([ok] + os)[i]) ==> !ok && forall i :: 0 <= i < |os| ==> !os[i]
  {
    if forall i :: 0 <= i < |os| + 1 ==> !([ok] + os)[i] {
      assert !([ok] + os)[0];
      forall i | 0 <= i < |os|
        ensures !os[i]
      {
        assert !([ok] + os)[i + 1];
      }
    }
  }

  /**
    Row `e`, committed against a graph of shape `shape`, became `e'` with
    outcome `ok`: it is written iff it would be; a row not written is left
    as it was, a written row caches its converted value and nothing else.
  */
  predicate Committed(e: PropertyEditor, e': PropertyEditor, ok: bool, shape: Chart, env: Env) {
    && ok == WouldApply(e, shape, env)
    && (!ok ==> e' == e)
    && (ok ==> Converted(e, env) == Some(e'.model.value) && e' == e.(model := e.model.(value := e'.model.value)))
  }

  lemma ApplyIsCommitted(e: PropertyEditor, g: Chart, env: Env)
    ensures var a := ApplyChanges(e, g, env);
      Committed(e, a.editor, a.ok, Skeleton(g), env)
  {
  }

  /** A fold of any single-row commit over a list of rows. */
  function Fold(step: (PropertyEditor, Chart) -> Applied, eds: seq<PropertyEditor>, g: Chart): CommitResult {
    if |eds| == 0 then CommitResult([], g, [])
    else
      var a := step(eds[0], g);
      var rest := Fold(step, eds[1..], a.graph);
      CommitResult([a.editor] + rest.editors, rest.graph, [a.ok] + rest.outcomes)
  }

  lemma {:induction false} FoldJoin(step: (PropertyEditor, Chart) -> Applied, a: seq<PropertyEditor>, b: seq<PropertyEditor>, g: Chart)
    ensures var ra := Fold(step, a, g);
      var rb := Fold(step, b, ra.graph);
      Fold(step, a + b, g) == CommitResult(ra.editors + rb.editors, rb.graph, ra.outcomes + rb.outcomes)
  {
    if |a| == 0 {
      assert a + b == b;
    } else {
      assert (a + b)[0] == a[0];
      assert (a + b)[1..] == a[1..] + b;
      var x := step(a[0], g);
      var r1 := Fold(step, a[1..], x.graph);
      var rb := Fold(step, b, r1.graph);
      var es := [x.editor] + r1.editors;
      var os := [x.ok] + r1.outcomes;
      assert [x.editor] + (r1.editors + rb.editors) == es + rb.editors;
      assert [x.ok] + (r1.outcomes + rb.outcomes) == os + rb.outcomes;
      FoldJoin(step, a[1..], b, x.graph);
      FoldCons(step, a, g);
      FoldCons(step, a + b, g);
      assert Fold(step, a, g) == CommitResult(es, r1.graph, os);
      assert Fold(step, a + b, g) == CommitResult(es + rb.editors, rb.graph, os + rb.outcomes);
    }
  }

  lemma FoldCons(step: (PropertyEditor, Chart) -> Applied, eds: seq<PropertyEditor>, g: Chart)
    requires 0 < |eds|
    ensures var x := step(eds[0], g);
      var rest := Fold(step, eds[1..], x.graph);
      Fold(step, eds, g) == CommitResult([x.editor] + rest.editors, rest.graph, [x.ok] + rest.outcomes)
  {
  }

  lemma {:induction false} CommitIsFold(eds: seq<PropertyEditor>, g: Chart, env: Env)
    ensures CommitEditors(eds, g, env) == Fold((e, h) => ApplyChanges(e, h, env), eds, g)
  {
    if |eds| > 0 {
      CommitIsFold(eds[1..], ApplyChanges(eds[0], g, env).graph, env);
    }
  }

  /** Committing `a + b` is committing `a`, then committing `b` against the graph `a` left. */
  lemma CommitJoin(a: seq<PropertyEditor>, b: seq<PropertyEditor>, g: Chart, env: Env)
    ensures var ra := CommitEditors(a, g, env);
      var rb := CommitEditors(b, ra.graph, env);
      CommitEditors(a + b, g, env) == CommitResult(ra.editors + rb.editors, rb.graph, ra.outcomes + rb.outcomes)
  {
    var step := (e, h) => ApplyChanges(e, h, env);
    CommitIsFold(a, g, env);
    CommitIsFold(a + b, g, env);
    CommitIsFold(b, CommitEditors(a, g, env).graph, env);
    FoldJoin(step, a, b, g);
  }

  function CountTrue(bs: seq<bool>): (n: nat)
    ensures n <= |bs|
    ensures n == 0 <==> forall i :: 0 <= i < |bs| ==> !bs[i]
  {
    if |bs| == 0 then 0 else (if bs[0] then 1 else 0) + CountTrue(bs[1..])
  }

  lemma {:induction false} CountTrueJoin(a: seq<bool>, b: seq<bool>)
    ensures CountTrue(a + b) == CountTrue(a) + CountTrue(b)
  {
    if |a| > 0 {
      assert (a + b)[1..] == a[1..] + b;
      CountTrueJoin(a[1..], b);
    } else {
      assert a + b == b;
    }
  }

  /** How many rows would be written, judged on the graph's shape. */
  function CountWouldApply(eds: seq<PropertyEditor>, shape: Chart, env: Env): nat {
    if |eds| == 0 then 0 else (if WouldApply(eds[0], shape, env) then 1 else 0) + CountWouldApply(eds[1..], shape, env)
  }

  /** How many rows differ from their cached value. */
  function CountChanged(eds: seq<PropertyEditor>): nat {
    if |eds| == 0 then 0 else (if HasChanged(eds[0]) then 1 else 0) + CountChanged(eds[1..])
  }

  /** Only changed rows are written, and the number written is the number that would be, row by row. */
  lemma {:induction false} CommitCount(eds: seq<PropertyEditor>, g: Chart, env: Env)
    ensures CountTrue(CommitEditors(eds, g, env).outcomes) == CountWouldApply(eds, Skeleton(g), env)
    ensures CountWouldApply(eds, Skeleton(g), env) <= CountChanged(eds)
  {
    if |eds| > 0 {
      var a := ApplyChanges(eds[0], g, env);
      var r := CommitEditors(eds, g, env);
      CommitCount(eds[1..], a.graph, env);
      assert r.outcomes[1..] == CommitEditors(eds[1..], a.graph, env).outcomes;
    }
  }

  /** The value a write of `w` leaves in field `f` of node `t`, for a graph of shape `shape`. */
  function WrittenValue(shape: Chart, t: NodeRef, f: string, w: Value): Value {
    var n := NodeAt(shape, t);
    if n.Some? && FindField(n.value.table, f).Some? && AcceptsValue(FindField(n.value.table, f).value.fieldType, w)
    then StoredValue(FindField(n.value.table, f).value.fieldType, w)
    else w
  }

  /** The converted value of the last row, in order, that would be written to field `f` of node `t`. */
  function LastWrite(eds: seq<PropertyEditor>, shape: Chart, env: Env, t: NodeRef, f: string): Option<Value> {
    if |eds| == 0 then None
    else
      var later := LastWrite(eds[1..], shape, env, t, f);
      if later.Some? then later
      else if WouldApply(eds[0], shape, env) && eds[0].model.target == t && eds[0].model.field == f
      then Some(Converted(eds[0], env).value)
      else None
  }

  /** A successful write changes its own field to the stored value and no other field of any node. */
  lemma ReadAfterWrite(e: PropertyEditor, g: Chart, env: Env, t: NodeRef, f: string)
    ensures var a := ApplyChanges(e, g, env);
      ReadField(a.graph, t, f) ==
        if a.ok && e.model.target == t && e.model.field == f
        then Some(WrittenValue(Skeleton(g), t, f, a.editor.model.value))
        else ReadField(g, t, f)
  {
    var a := ApplyChanges(e, g, env);
    SkeletonNodeAt(g, t);
    if a.ok && e.model.target != t {
      assert NodeAt(a.graph, t) == NodeAt(g, t);
    }
  }

  /**
    Last writer wins: after the commit a field holds what the last row
    written to it stored there, and a field no row was written to keeps its
    value.
  */
  lemma {:induction false} LastWriterWins(eds: seq<PropertyEditor>, g: Chart, env: Env, t: NodeRef, f: string)
    ensures ReadField(CommitEditors(eds, g, env).graph, t, f) ==
      match LastWrite(eds, Skeleton(g), env, t, f)
      case None => ReadField(g, t, f)
      case Some(w) => Some(WrittenValue(Skeleton(g), t, f, w))
  {
    if |eds| > 0 {
      var a := ApplyChanges(eds[0], g, env);
      LastWriterWins(eds[1..], a.graph, env, t, f);
      ReadAfterWrite(eds[0], g, env, t, f);
    }
  }

  /**
    A second Apply right after the first writes a row only if the first
    wrote it too and the row's conversion changed the typed value, as
    re-parsed text does; rows the first Apply could not write still fail.
  */
  lemma RecommitRewritesOnlyConvertedRows(eds: seq<PropertyEditor>, g: Chart, env: Env)
    ensures var r1 := CommitEditors(eds, g, env);
      var r2 := CommitEditors(r1.editors, r1.graph, env);
      forall i :: 0 <= i < |eds| && r2.outcomes[i] ==>
        r1.outcomes[i] && Converted(eds[i], env) != Some(eds[i].editorValue)
  {
    var r1 := CommitEditors(eds, g, env);
    var r2 := CommitEditors(r1.editors, r1.graph, env);
    forall i | 0 <= i < |eds| && r2.outcomes[i]
      ensures r1.outcomes[i] && Converted(eds[i], env) != Some(eds[i].editorValue)
    {
      assert WouldApply(r1.editors[i], Skeleton(g), env);
      if r1.outcomes[i] {
        assert HasChanged(r1.editors[i]);
      }
    }
  }

  /** The rows of the sheet, category by category, each committed in place. */
  function CommitCategories(cats: seq<Category>, g: Chart, env: Env): (r: (seq<Category>, Chart, seq<bool>))
    ensures |r.0| == |cats|
    ensures forall i :: 0 <= i < |cats| ==>
      r.0[i].name == cats[i].name && r.0[i].header == cats[i].header && r.0[i].isExpanded == cats[i].isExpanded
    ensures AllEditors(r.0) == CommitEditors(AllEditors(cats), g, env).editors
    ensures r.1 == CommitEditors(AllEditors(cats), g, env).graph
    ensures r.2 == CommitEditors(AllEditors(cats), g, env).outcomes
  {
    var step := (e, h) => ApplyChanges(e, h, env);
    FoldCategoriesIsFold(step, cats, g);
    CommitIsFold(AllEditors(cats), g, env);
    FoldCategories(step, cats, g)
  }

  /** Runs `step` over the rows of each category in turn, threading the graph through. */
  function FoldCategories(step: (PropertyEditor, Chart) -> Applied, cats: seq<Category>, g: Chart): (r: (seq<Category>, Chart, seq<bool>))
    ensures |r.0| == |cats|
    ensures forall i :: 0 <= i < |cats| ==>
      r.0[i].name == cats[i].name && r.0[i].header == cats[i].header && r.0[i].isExpanded == cats[i].isExpanded
  {
    if |cats| == 0 then ([], g, [])
    else
      var c := Fold(step, cats[0].properties, g);
      var rest := FoldCategories(step, cats[1..], c.graph);
      var cats' := [cats[0].(properties := c.editors)] + rest.0;
      assert forall i :: 0 < i < |cats| ==> cats'[i] == rest.0[i - 1] && cats[i] == cats[1..][i - 1];
      (cats', rest.1, c.outcomes + rest.2)
  }

  /** Category by category is the same as row by row over all rows at once. */
  lemma {:induction false} FoldCategoriesIsFold(step: (PropertyEditor, Chart) -> Applied, cats: seq<Category>, g: Chart)
    ensures var r := FoldCategories(step, cats, g);
      var f := Fold(step, AllEditors(cats), g);
      AllEditors(r.0) == f.editors && r.1 == f.graph && r.2 == f.outcomes
  {
    if |cats| > 0 {
      var c := Fold(step, cats[0].properties, g);
      var rest := FoldCategories(step, cats[1..], c.graph);
      FoldCategoriesIsFold(step, cats[1..], c.graph);
      FoldJoin(step, cats[0].properties, AllEditors(cats[1..]), g);
      AllEditorsCons(cats[0].(properties := c.editors), rest.0);
    }
  }

  lemma AllEditorsCons(c: Category, cs: seq<Category>)
    ensures AllEditors([c] + cs) == c.properties + AllEditors(cs)
  {
    assert ([c] + cs)[1..] == cs;
  }

  datatype ApplyReport = ApplyReport(categories: seq<Category>, graph: Chart, changedCount: nat, refreshRequested: bool)

  /**
    `ApplyChanges` of the dialog: commit every row of every category in
    order, count the rows written, then refresh the chart. The count is the
    number of changed rows whose value converts and whose setter accepts it;
    categories keep their names, headers and expansion.
  */
  function ApplyAllChanges(cats: seq<Category>, g: Chart, env: Env): (r: ApplyReport)
    ensures r.graph == CommitEditors(AllEditors(cats), g, env).graph
    ensures AllEditors(r.categories) == CommitEditors(AllEditors(cats), g, env).editors
    ensures r.changedCount == CountTrue(CommitEditors(AllEditors(cats), g, env).outcomes)
    ensures r.changedCount == CountWouldApply(AllEditors(cats), Skeleton(g), env)
    ensures r.changedCount <= CountChanged(AllEditors(cats))
    ensures |r.categories| == |cats|
    ensures forall i :: 0 <= i < |cats| ==>
      r.categories[i].name == cats[i].name && r.categories[i].header == cats[i].header
      && r.categories[i].isExpanded == cats[i].isExpanded
    ensures Skeleton(r.graph) == Skeleton(g)
    ensures r.changedCount == 0 ==> r.graph == g
    ensures r.refreshRequested
  {
    var c := CommitCategories(cats, g, env);
    CommitCount(AllEditors(cats), g, env);
    ApplyReport(c.0, c.1, CountTrue(c.2), true)
  }

  lemma {:induction false} InAllEditors(cats: seq<Category>, e: PropertyEditor)
    requires e in AllEditors(cats)
    ensures exists i :: 0 <= i < |cats| && e in cats[i].properties
  {
    if e !in cats[0].properties {
      InAllEditors(cats[1..], e);
      var i :| 0 <= i < |cats[1..]| && e in cats[1..][i].properties;
      assert e in cats[i + 1].properties;
    }
  }

  lemma {:induction false} UnchangedAppliesNothing(eds: seq<PropertyEditor>, shape: Chart, env: Env)
    requires forall e :: e in eds ==> !HasChanged(e)
    ensures CountWouldApply(eds, shape, env) == 0
  {
    if |eds| > 0 {
      assert eds[0] in eds;
      UnchangedAppliesNothing(eds[1..], shape, env);
    }
  }

  /** Applying a freshly loaded sheet, before any edit, writes nothing and reports zero changes. */
  lemma FreshSheetAppliesNothing(es: seq<ChartProperty>, g: Chart, env: Env)
    ensures var r := ApplyAllChanges(LoadProperties(es), g, env);
      r.changedCount == 0 && r.graph == g
  {
    var cats := LoadProperties(es);
    forall e | e in AllEditors(cats)
      ensures !HasChanged(e)
    {
      InAllEditors(cats, e);
      var i :| 0 <= i < |cats| && e in cats[i].properties;
      assert GroupOf(es, cats[i]);
    }
    UnchangedAppliesNothing(AllEditors(cats), Skeleton(g), env);
  }
}

=== FILE: optional.dfy ===
/** The model's stand-in for a C# reference that may be null. */
module Optional {

  datatype Option<+T> = None | Some(value: T) {

    /** The wrapped value, or `default` when there is none (C#'s `??`). */
    function GetOr(default: T): T {
      match this
      case Some(v) => v
      case None => default
    }
  }
}

=== FILE: property_editor.dfy ===
/**
  One row of the property sheet (`ChartPropertyViewModel`): the catalog
  entry, the value its editor shows, the change test, and the commit of a
  single entry with its type conversion.
*/
module PropertyEditors {
  import opened Optional
  import opened Text
  import opened Clr
  import opened ChartGraph
  import opened ChartPropertyModel
  import Catalog

  /** A catalog entry together with the (uninterpreted, as typed) value its editor holds. */
  datatype PropertyEditor = PropertyEditor(model: ChartProperty, editorValue: Value)

  /** `object.Equals(a, b)`: two nulls are equal, null and non-null are not, otherwise the boxed values' own `Equals`. */
  predicate ObjectEquals(a: Value, b: Value)
    ensures ObjectEquals(a, b) <==> a == b
  {
    if a.Null? || b.Null? then a.Null? && b.Null? else a == b
  }

  /** `HasChanged`: the editor shows something other than the cached value. */
  predicate HasChanged(e: PropertyEditor)
    ensures HasChanged(e) <==> e.model.value != e.editorValue
  {
    !ObjectEquals(e.model.value, e.editorValue)
  }

  /** The constructor: the editor starts out showing the cached value, so nothing has changed. */
  function NewEditor(p: ChartProperty): (e: PropertyEditor)
    ensures e.model == p
    ensures !HasChanged(e)
  {
    PropertyEditor(p, p.value)
  }

  /** The editor's setter: the entry counts as changed exactly when the new value differs from the cached one. */
  function SetEditorValue(e: PropertyEditor, v: Value): (r: PropertyEditor)
    ensures r.model == e.model && r.editorValue == v
    ensures HasChanged(r) <==> v != e.model.value
  {
    e.(editorValue := v)
  }

  /**
    `r` stands in `s` at `k`, inside the piece that starts at `m` right after
    the last '-' (at the start when there is none), with only white space
    between `m` and `r` and between `r` and the end.
  */
  ghost predicate ShortNameAt(s: string, m: nat, k: nat, r: string) {
    && m <= k && k + |r| <= |s|
    && (m == 0 || s[m - 1] == '-')
    && (forall j :: m <= j < |s| ==> s[j] != '-')
    && (forall j :: m <= j < k ==> IsWhiteSpace(s[j]))
    && s[k..k + |r|] == r
    && (forall j :: k + |r| <= j < |s| ==> IsWhiteSpace(s[j]))
  }

  /** `Name`: the trimmed text after the last '-' of the full name. */
  function ShortName(fullName: string): (r: string)
    ensures '-' !in r
    ensures Trimmed(r)
    ensures |r| <= |fullName|
    ensures exists m, k :: ShortNameAt(fullName, m, k, r)
  {
    TrimmedTailIsAt(fullName);
    Trim(AfterLast(fullName, '-'))
  }

  lemma TrimmedTailIsAt(s: string)
    ensures var r := Trim(AfterLast(s, '-'));
      '-' !in r && |r| <= |s|
    ensures exists m, k :: ShortNameAt(s, m, k, Trim(AfterLast(s, '-')))
  {
    var m, k := TrimmedPieceIsAt(s, AfterLast(s, '-'));
  }

  /** The trimmed last '-'-free piece `tail` of `s` is a short name of `s`. */
  lemma TrimmedPieceIsAt(s: string, tail: string) returns (m: nat, k: nat)
    requires '-' !in tail
    requires |tail| <= |s| && tail == s[|s| - |tail|..]
    requires |tail| < |s| ==> s[|s| - |tail| - 1] == '-'
    ensures '-' !in Trim(tail) && |Trim(tail)| <= |s|
    ensures ShortNameAt(s, m, k, Trim(tail))
  {
    var l, r := LeadingSpace(tail), Trim(tail);
    SliceLacks(tail, l, r, '-');
    TailPositions(s, tail);
    m, k := PieceIsAt(s, tail, l, r);
  }

  /** A slice of a text without `c` has no `c` either. */
  lemma SliceLacks(t: string, l: nat, r: string, c: char)
    requires c !in t
    requires l + |r| <= |t| && r == t[l..l + |r|]
    ensures c !in r
  {
    forall i | 0 <= i < |r|
      ensures r[i] != c
    {
      assert r[i] == t[l + i];
      assert t[l + i] in t;
    }
  }

  /** The last '-'-free piece of `s`, read position by position. */
  lemma TailPositions(s: string, tail: string)
    requires |tail| <= |s| && tail == s[|s| - |tail|..]
    requires '-' !in tail
    ensures forall j :: |s| - |tail| <= j < |s| ==> s[j] == tail[j - (|s| - |tail|)] && s[j] != '-'
  {
    var m := |s| - |tail|;
    forall j | m <= j < |s|
      ensures s[j] == tail[j - m] && s[j] != '-'
    {
      assert tail[j - m] in tail;
    }
  }

  /** A slice `r` of the piece `tail` that ends `s`, with only white space around it in `tail`, stands in `s` as `ShortNameAt` says. */
  lemma PieceIsAt(s: string, tail: string, l: nat, r: string) returns (m: nat, k: nat)
    requires |tail| <= |s|
    requires forall j :: |s| - |tail| <= j < |s| ==> s[j] == tail[j - (|s| - |tail|)] && s[j] != '-'
    requires |tail| < |s| ==> s[|s| - |tail| - 1] == '-'
    requires l + |r| <= |tail| && r == tail[l..l + |r|]
    requires forall i :: 0 <= i < l ==> IsWhiteSpace(tail[i])
    requires forall i :: l + |r| <= i < |tail| ==> IsWhiteSpace(tail[i])
    ensures ShortNameAt(s, m, k, r)
  {
    m, k := |s| - |tail|, |s| - |tail| + l;
    assert s[k..k + |r|] == r;
  }

  /** Only one trimmed text stands in a name the way `ShortNameAt` says. */
  lemma ShortNameAtIsUnique(s: string, m1: nat, k1: nat, r1: string, m2: nat, k2: nat, r2: string)
    requires Trimmed(r1) && Trimmed(r2)
    requires ShortNameAt(s, m1, k1, r1) && ShortNameAt(s, m2, k2, r2)
    ensures r1 == r2
  {
    assert m1 == m2;
    if |r1| > 0 && |r2| > 0 {
      assert s[k1] == r1[0] && s[k2] == r2[0];
      assert k1 == k2;
      assert s[k1 + |r1| - 1] == r1[|r1| - 1] && s[k2 + |r2| - 1] == r2[|r2| - 1];
      assert |r1| == |r2|;
    }
  }

  /** `ShortName` is the one trimmed text that stands after the last '-' with only white space around it. */
  lemma ShortNameIsCharacterized(s: string, r: string)
    requires Trimmed(r)
    requires exists m, k :: ShortNameAt(s, m, k, r)
    ensures ShortName(s) == r
  {
    var m1, k1 :| ShortNameAt(s, m1, k1, r);
    var m2, k2 :| ShortNameAt(s, m2, k2, ShortName(s));
    ShortNameAtIsUnique(s, m1, k1, r, m2, k2, ShortName(s));
  }

  /** A name without '-' and without surrounding white space, such as "Bin Count", is its own short name. */
  lemma ShortNameOfPlain(s: string)
    requires '-' !in s
    requires Trimmed(s)
    ensures ShortName(s) == s
  {
    assert s[0..0 + |s|] == s;
    assert ShortNameAt(s, 0, 0, s);
    ShortNameIsCharacterized(s, s);
  }

  function Name(e: PropertyEditor): string {
    ShortName(e.model.name)
  }

  /** `FullName`: the entry's name as the catalog built it. */
  function FullName(e: PropertyEditor): string {
    e.model.name
  }

  /** A property name as C# writes one: no '-' and no white space. */
  predicate PlainName(f: string) {
    forall i :: 0 <= i < |f| ==> f[i] != '-' && !IsWhiteSpace(f[i])
  }

  /** The short name of "<prefix> - <field>" is the field name, whatever the prefix holds. */
  lemma ShortNameOfQualified(prefix: string, f: string)
    requires PlainName(f)
    ensures ShortName(prefix + " - " + f) == f
  {
    assert prefix + " - " + f == (prefix + " ") + ['-'] + (" " + f);
    assert '-' !in " " + f by {
      assert forall i :: 0 <= i < |f| ==> (" " + f)[i + 1] == f[i];
    }
    AfterLastOfJoin(prefix + " ", '-', " " + f);
    assert TrimStart(" " + f) == TrimStart(f);
    TrimStartKeeps(f);
    TrimEndKeeps(f);
  }

  /** Every reflected entry with a plain field name is listed under that field name. */
  lemma ReflectedEntriesShowFieldName(r: NodeRef, node: Option<Node>, category: string, prefix: string)
    ensures forall e :: e in Catalog.AddObjectProperties(r, node, category, prefix) && PlainName(e.field) ==>
      ShortName(e.name) == e.field
  {
    forall e | e in Catalog.AddObjectProperties(r, node, category, prefix) && PlainName(e.field)
      ensures ShortName(e.name) == e.field
    {
      ShortNameOfQualified(prefix, e.field);
    }
  }

  /** `UnderlyingType` of the entry's declared type. */
  function UnderlyingTypeOf(e: PropertyEditor): ClrType {
    UnderlyingType(e.model.propertyType)
  }

  predicate IsBoolean(e: PropertyEditor) {
    UnderlyingTypeOf(e) == BooleanType
  }

  predicate IsEnum(e: PropertyEditor) {
    UnderlyingTypeOf(e).EnumType?
  }

  predicate IsText(e: PropertyEditor) {
    !IsBoolean(e) && !IsEnum(e)
  }

  /** The three editor templates partition the entries: each gets a check box, a choice list or a text box, and only one of them. */
  lemma ExactlyOneEditorTemplate(e: PropertyEditor)
    ensures (if IsBoolean(e) then 1 else 0) + (if IsEnum(e) then 1 else 0) + (if IsText(e) then 1 else 0) == 1
  {
  }

  /** `EnumValues`: the enum's values for an enum (or nullable enum) entry, null for any other. */
  function EnumValues(e: PropertyEditor): (r: Option<seq<Value>>)
    ensures r.Some? <==> IsEnum(e)
    ensures r.Some? ==> |r.value| == |UnderlyingTypeOf(e).members|
    ensures r.Some? ==> forall v :: v in r.value ==> InstanceOf(v, UnderlyingTypeOf(e))
    ensures r.Some? ==> forall i :: 0 <= i < |r.value| ==>
      r.value[i] == EnumMember(UnderlyingTypeOf(e).enumName, UnderlyingTypeOf(e).members[i])
  {
    if IsEnum(e) then
      var t := UnderlyingTypeOf(e);
      Some(seq(|t.members|, i requires 0 <= i < |t.members| => EnumMember(t.enumName, t.members[i])))
    else None
  }

  /** Any member picked from the choice list converts to itself and is a value the field's setter accepts. */
  lemma ChosenEnumValueIsWritable(e: PropertyEditor, i: nat, conv: Conversions)
    requires IsEnum(e)
    requires i < |UnderlyingTypeOf(e).members|
    ensures var v := EnumValues(e).value[i];
      ConvertValue(e.model.propertyType, v, conv) == Some(v) && AcceptsValue(e.model.propertyType, v)
  {
  }

  /** The underlying types `ConvertValue` converts to; every other value passes through. */
  predicate IsConvertible(u: ClrType) {
    u == Int32Type || u == DoubleType || u == SingleType || u == BooleanType
  }

  /**
    `ConvertValue`: null against a generic (nullable) type stays null; an
    underlying `int`, `double`, `float` or `bool` goes through the matching
    `Convert.To*`, which may fail; text, enums and everything else pass
    through unchanged.
  */
  function ConvertValue(t: ClrType, v: Value, conv: Conversions): (r: Option<Value>)
    ensures v.Null? && IsGeneric(t) ==> r == Some(Null)
    ensures !(v.Null? && IsGeneric(t)) && IsConvertible(UnderlyingType(t)) && r.Some? ==>
      InstanceOf(r.value, UnderlyingType(t))
    ensures !IsConvertible(UnderlyingType(t)) ==> r == Some(v)
    ensures InstanceOf(v, UnderlyingType(t)) ==> r == Some(v)
    ensures IsConvertible(UnderlyingType(t)) && r.Some? ==> AcceptsValue(t, r.value)
    ensures !(v.Null? && IsGeneric(t)) && UnderlyingType(t) == Int32Type ==> r == ToInt32(conv, v)
    ensures !(v.Null? && IsGeneric(t)) && UnderlyingType(t) == DoubleType ==> r == ToDouble(conv, v)
    ensures !(v.Null? && IsGeneric(t)) && UnderlyingType(t) == SingleType ==> r == ToSingle(conv, v)
    ensures !(v.Null? && IsGeneric(t)) && UnderlyingType(t) == BooleanType ==> r == ToBoolean(conv, v)
  {
    if v.Null? && IsGeneric(t) then Some(Null)
    else
      var u := UnderlyingType(t);
      if u == Int32Type then ToInt32(conv, v)
      else if u == DoubleType then ToDouble(conv, v)
      else if u == SingleType then ToSingle(conv, v)
      else if u == BooleanType then ToBoolean(conv, v)
      else Some(v)
  }

  /** Converting a converted value again changes nothing. */
  lemma ConvertValueIdempotent(t: ClrType, v: Value, conv: Conversions)
    requires ConvertValue(t, v, conv).Some?
    ensures var w := ConvertValue(t, v, conv).value;
      ConvertValue(t, w, conv) == Some(w)
  {
  }

  /**
    A number typed into the text box of an `int` or `int?` entry converts
    exactly when the culture's parser reads it as an integer in the 32-bit
    range, and then to that integer.
  */
  lemma TypedIntegerIsParsed(t: ClrType, s: string, conv: Conversions, n: int)
    requires UnderlyingType(t) == Int32Type
    ensures ConvertValue(t, Text(s), conv) == Some(Int32(n)) <==> conv.parseInt(s) == Some(n) && InInt32Range(n)
  {
  }

  /** What an entry's commit depends on: the conversions and the setters of the charting library. */
  datatype Env = Env(conversions: Conversions, policy: SetterPolicy)

  function Converted(e: PropertyEditor, env: Env): Option<Value> {
    ConvertValue(e.model.propertyType, e.editorValue, env.conversions)
  }

  /**
    Whether committing `e` writes, judged on the shape of the graph alone:
    it has changed, its editor value converts, and the target's setter
    accepts the converted value.
  */
  predicate WouldApply(e: PropertyEditor, shape: Chart, env: Env) {
    && HasChanged(e)
    && Converted(e, env).Some?
    && Settable(shape, e.model.target, e.model.field, Converted(e, env).value, env.policy)
  }

  datatype Applied = Applied(ok: bool, editor: PropertyEditor, graph: Chart)

  /**
    `ApplyChanges` of one entry. An unchanged entry reports false and
    touches nothing. Otherwise the editor value is converted by the entry's
    type and written to the target field; on success the field and the
    cached value both take the converted value (reflection stores
    `default(T)` for a null given to a non-nullable value type) and the
    result is true. A failed conversion or write reports false and leaves
    both the graph and the cached value as they were.
  */
  function ApplyChanges(e: PropertyEditor, g: Chart, env: Env): (r: Applied)
    ensures !HasChanged(e) ==> r == Applied(false, e, g)
    ensures !r.ok ==> r.editor == e && r.graph == g
    ensures r.ok <==> WouldApply(e, Skeleton(g), env)
    ensures r.ok ==>
      && HasChanged(e)
      && Converted(e, env) == Some(r.editor.model.value)
      && r.editor == e.(model := e.model.(value := r.editor.model.value))
      && SetField(g, e.model.target, e.model.field, r.editor.model.value, env.policy) == Some(r.graph)
    ensures Skeleton(r.graph) == Skeleton(g)
  {
    SettableDependsOnShape(g, e.model.target, e.model.field, Converted(e, env).GetOr(Null), env.policy);
    if !HasChanged(e) then Applied(false, e, g)
    else
      match Converted(e, env)
      case None => Applied(false, e, g)
      case Some(w) =>
        match SetField(g, e.model.target, e.model.field, w, env.policy)
        case None => Applied(false, e, g)
        case Some(g') => Applied(true, e.(model := e.model.(value := w)), g')
  }

  /** After a successful write the target field holds the converted value, as reflection stores it. */
  lemma AppliedValueIsInField(e: PropertyEditor, g: Chart, env: Env)
    requires ApplyChanges(e, g, env).ok
    ensures var r := ApplyChanges(e, g, env);
      var fd := FindField(NodeAt(g, e.model.target).value.table, e.model.field).value;
      ReadField(r.graph, e.model.target, e.model.field) == Some(StoredValue(fd.fieldType, r.editor.model.value))
  {
  }

  /**
    Idempotence: when the editor already holds a value its conversion leaves
    alone, a second commit right after a successful one reports false and
    writes nothing.
  */
  lemma ReapplyOfConvertedValueIsNoOp(e: PropertyEditor, g: Chart, env: Env)
    requires ApplyChanges(e, g, env).ok
    requires Converted(e, env) == Some(e.editorValue)
    ensures var r := ApplyChanges(e, g, env);
      ApplyChanges(r.editor, r.graph, env) == Applied(false, r.editor, r.graph)
  {
  }

  /**
    A number or flag typed into a text box stays "changed" after it is
    committed: the editor keeps the text while the cache holds the converted
    value, so every later commit writes it again and reports true again.
  */
  lemma TextEditIsReappliedEveryTime(e: PropertyEditor, g: Chart, env: Env)
    requires e.editorValue.Text?
    requires IsConvertible(UnderlyingTypeOf(e))
    requires ApplyChanges(e, g, env).ok
    ensures var r := ApplyChanges(e, g, env);
      && HasChanged(r.editor)
      && ApplyChanges(r.editor, r.graph, env).ok
      && ApplyChanges(r.editor, r.graph, env).editor == r.editor
  {
    var r := ApplyChanges(e, g, env);
    assert Converted(r.editor, env) == Converted(e, env);
  }

  /**
    Clearing the text of a nullable number or flag does not clear the
    field: the empty text fails to parse, the commit reports false and
    nothing is written.
  */
  lemma EmptyTextIsRejected(e: PropertyEditor, g: Chart, env: Env)
    requires RejectsEmptyText(env.conversions)
    requires e.editorValue == Text("")
    requires IsConvertible(UnderlyingTypeOf(e))
    ensures ApplyChanges(e, g, env) == Applied(false, e, g)
  {
    EmptyTextDoesNotConvert(e.model.propertyType, env.conversions);
  }

  lemma EmptyTextDoesNotConvert(t: ClrType, conv: Conversions)
    requires RejectsEmptyText(conv)
    requires IsConvertible(UnderlyingType(t))
    ensures ConvertValue(t, Text(""), conv) == None
  {
    var u := UnderlyingType(t);
    if u == BooleanType {
      assert TrimWhiteSpaceAndNull("") == "";
      assert ParseBoolean("") == None;
      assert ToBoolean(conv, Text("")) == None;
    } else if u == Int32Type {
      assert ToInt32(conv, Text("")) == None;
    } else if u == DoubleType {
      assert ToDouble(conv, Text("")) == None;
    } else {
      assert ToSingle(conv, Text("")) == None;
    }
  }

  /** Committing null to a nullable entry clears it: the field and the cache both become null. */
  lemma NullClearsNullableEntry(e: PropertyEditor, g: Chart, env: Env)
    requires IsGeneric(e.model.propertyType)
    requires e.editorValue == Null && e.model.value != Null
    requires Settable(g, e.model.target, e.model.field, Null, env.policy)
    ensures ApplyChanges(e, g, env).ok
    ensures ApplyChanges(e, g, env).editor.model.value == Null
  {
    SettableDependsOnShape(g, e.model.target, e.model.field, Null, env.policy);
  }

  /** Committing null to a plain `int` entry (such as "Bin Count") writes 0, since `Convert.ToInt32(null)` is 0. */
  lemma NullOnIntEntryWritesZero(e: PropertyEditor, g: Chart, env: Env)
    requires e.model.propertyType == Int32Type
    requires e.editorValue == Null && e.model.value != Null
    requires Settable(g, e.model.target, e.model.field, Int32(0), env.policy)
    ensures ApplyChanges(e, g, env).ok
    ensures ApplyChanges(e, g, env).editor.model.value == Int32(0)
  {
    SettableDependsOnShape(g, e.model.target, e.model.field, Int32(0), env.policy);
  }
}

=== FILE: sorting.dfy ===
/**
  A stable sort by a string key in ordinal order: what `OrderBy(key)`
  does to a sequence.
*/
module Sorting {
  import opened Text

  ghost predicate SortedBy<T>(s: seq<T>, key: T -> string) {
    forall i, j :: 0 <= i < j < |s| ==> OrdinalLessEq(key(s[i]), key(s[j]))
  }

  /** Puts `x` in front of the first element whose key is not below its own. */
  function Insert<T>(x: T, s: seq<T>, key: T -> string): (r: seq<T>)
    ensures |r| == |s| + 1
  {
    if |s| == 0 then [x]
    else if OrdinalLessEq(key(x), key(s[0])) then [x] + s
    else [s[0]] + Insert(x, s[1..], key)
  }

  /** Inserting adds `x` and loses nothing. */
  lemma {:induction false} InsertPermutes<T>(x: T, s: seq<T>, key: T -> string)
    ensures multiset(Insert(x, s, key)) == multiset(s) + multiset{x}
  {
    if |s| > 0 && !OrdinalLessEq(key(x), key(s[0])) {
      InsertPermutes(x, s[1..], key);
      assert s == [s[0]] + s[1..];
    }
  }

  lemma {:induction false} InsertSorted<T>(x: T, s: seq<T>, key: T -> string)
    requires SortedBy(s, key)
    ensures SortedBy(Insert(x, s, key), key)
  {
    if |s| > 0 && !OrdinalLessEq(key(x), key(s[0])) {
      var rest := Insert(x, s[1..], key);
      InsertSorted(x, s[1..], key);
      InsertPermutes(x, s[1..], key);
      OrdinalTotal(key(x), key(s[0]));
      forall y | y in rest
        ensures OrdinalLessEq(key(s[0]), key(y))
      {
        assert y in multiset(rest);
        if y != x {
          assert y in multiset(s[1..]);
          var k :| 0 <= k < |s[1..]| && s[1..][k] == y;
          assert s[k + 1] == y;
        }
      }
      SortedCons(s[0], rest, key);
    } else if |s| > 0 {
      forall y | y in s
        ensures OrdinalLessEq(key(x), key(y))
      {
        var k :| 0 <= k < |s| && s[k] == y;
        if k > 0 {
          OrdinalTransitive(key(x), key(s[0]), key(s[k]));
        }
      }
      SortedCons(x, s, key);
    }
  }

  /** A sorted sequence stays sorted under a new head whose key is at most every key in it. */
  lemma SortedCons<T>(y: T, rest: seq<T>, key: T -> string)
    requires SortedBy(rest, key)
    requires forall z :: z in rest ==> OrdinalLessEq(key(y), key(z))
    ensures SortedBy([y] + rest, key)
  {
    var r := [y] + rest;
    forall i, j | 0 <= i < j < |r|
      ensures OrdinalLessEq(key(r[i]), key(r[j]))
    {
      assert r[j] == rest[j - 1];
      if i == 0 {
        assert rest[j - 1] in rest;
      } else {
        assert r[i] == rest[i - 1];
      }
    }
  }

  /** `OrderBy(key)`: a permutation of `s` in ascending key order. */
  function SortBy<T>(s: seq<T>, key: T -> string): (r: seq<T>)
    ensures |r| == |s|
    ensures multiset(r) == multiset(s)
    ensures SortedBy(r, key)
  {
    if |s| == 0 then []
    else
      var t := SortBy(s[1..], key);
      InsertSorted(s[0], t, key);
      InsertPermutes(s[0], t, key);
      assert s == [s[0]] + s[1..];
      Insert(s[0], t, key)
  }

  /** The elements of `s` whose key is `k`, in their order in `s`. */
  function WithKey<T>(s: seq<T>, key: T -> string, k: string): seq<T> {
    if |s| == 0 then [] else (if key(s[0]) == k then [s[0]] else []) + WithKey(s[1..], key, k)
  }

  lemma WithKeyCons<T>(y: T, t: seq<T>, key: T -> string, k: string)
    ensures WithKey([y] + t, key, k) == (if key(y) == k then [y] else []) + WithKey(t, key, k)
  {
    assert ([y] + t)[1..] == t;
  }

  lemma {:induction false} WithKeyOfInsert<T>(x: T, s: seq<T>, key: T -> string, k: string)
    ensures WithKey(Insert(x, s, key), key, k) == (if key(x) == k then [x] else []) + WithKey(s, key, k)
  {
    if |s| == 0 {
      WithKeyCons(x, s, key, k);
    } else if OrdinalLessEq(key(x), key(s[0])) {
      WithKeyCons(x, s, key, k);
    } else {
      var rest := Insert(x, s[1..], key);
      assert Insert(x, s, key) == [s[0]] + rest;
      WithKeyCons(s[0], rest, key, k);
      WithKeyOfInsert(x, s[1..], key, k);
      WithKeyCons(s[0], s[1..], key, k);
      assert s == [s[0]] + s[1..];
      var w := WithKey(s[1..], key, k);
      if key(x) == k {
        OrdinalReflexive(k);
        assert key(s[0]) != k;
        assert WithKey(Insert(x, s, key), key, k) == [x] + w;
        assert WithKey(s, key, k) == w;
      } else {
        var a0 := if key(s[0]) == k then [s[0]] else [];
        assert WithKey(Insert(x, s, key), key, k) == a0 + w;
        assert WithKey(s, key, k) == a0 + w;
      }
    }
  }

  /** Stability: elements with equal keys keep their relative order. */
  lemma {:induction false} SortByIsStable<T>(s: seq<T>, key: T -> string, k: string)
    ensures WithKey(SortBy(s, key), key, k) == WithKey(s, key, k)
  {
    if |s| > 0 {
      SortByIsStable(s[1..], key, k);
      WithKeyOfInsert(s[0], SortBy(s[1..], key), key, k);
    }
  }
}

=== FILE: text.dfy ===
/**
  String helpers the property sheet relies on: decimal rendering of counts,
  .NET's notion of white space and `Trim`, "the text after the last
  separator" (`Split(sep).Last()`), and ordinal string order.
*/
module Text {

  predicate IsDigit(c: char) {
    '0' <= c <= '9'
  }

  predicate AllDigits(s: string) {
    forall i :: 0 <= i < |s| ==> IsDigit(s[i])
  }

  function DigitChar(d: nat): (c: char)
    requires d < 10
    ensures IsDigit(c)
    ensures c as int - '0' as int == d
  {
    ('0' as int + d) as char
  }

  /** Invariant-culture rendering of a non-negative integer, as `$"{n}"` gives it. */
  function Decimal(n: nat): (s: string)
    ensures 0 < |s|
    ensures AllDigits(s)
    ensures 1 < |s| ==> s[0] != '0'
  {
    if n < 10 then [DigitChar(n)] else Decimal(n / 10) + [DigitChar(n % 10)]
  }

  /** The number a string of decimal digits denotes. */
  function DigitsValue(s: string): nat
    requires AllDigits(s)
  {
    if |s| == 0 then 0
    else 10 * DigitsValue(s[..|s| - 1]) + (s[|s| - 1] as int - '0' as int)
  }

  /** Reading a rendered count back gives the count: the rendering loses nothing. */
  lemma {:induction false} DecimalRoundTrip(n: nat)
    ensures DigitsValue(Decimal(n)) == n
  {
    if n >= 10 {
      var s := Decimal(n);
      assert s[..|s| - 1] == Decimal(n / 10);
      DecimalRoundTrip(n / 10);
    }
  }

  lemma DecimalInjective(a: nat, b: nat)
    requires Decimal(a) == Decimal(b)
    ensures a == b
  {
    DecimalRoundTrip(a);
    DecimalRoundTrip(b);
  }

  /** The characters `char.IsWhiteSpace` accepts (the Unicode separators plus the ASCII controls 9-13, U+0085, U+00A0). */
  predicate IsWhiteSpace(c: char) {
    || c == ' '
    || '\t' <= c <= '\r'
    || c == '\U{0085}'
    || c == '\U{00A0}'
    || c == '\U{1680}'
    || '\U{2000}' <= c <= '\U{200A}'
    || c == '\U{2028}'
    || c == '\U{2029}'
    || c == '\U{202F}'
    || c == '\U{205F}'
    || c == '\U{3000}'
  }

  /** Neither end of `s` is white space. */
  predicate Trimmed(s: string) {
    |s| == 0 || (!IsWhiteSpace(s[0]) && !IsWhiteSpace(s[|s| - 1]))
  }

  function TrimStart(s: string): (r: string)
    ensures |r| <= |s| && r == s[|s| - |r|..]
    ensures |r| > 0 ==> !IsWhiteSpace(r[0])
    ensures forall i :: 0 <= i < |s| - |r| ==> IsWhiteSpace(s[i])
  {
    if |s| > 0 && IsWhiteSpace(s[0]) then TrimStart(s[1..]) else s
  }

  function TrimEnd(s: string): (r: string)
    ensures |r| <= |s| && r == s[..|r|]
    ensures |r| > 0 ==> !IsWhiteSpace(r[|r| - 1])
    ensures forall i :: |r| <= i < |s| ==> IsWhiteSpace(s[i])
  {
    if |s| > 0 && IsWhiteSpace(s[|s| - 1]) then TrimEnd(s[..|s| - 1]) else s
  }

  /** How many white-space characters `TrimStart` removes from the front of `s`. */
  function LeadingSpace(s: string): (n: nat)
    ensures n <= |s|
  {
    |s| - |TrimStart(s)|
  }

  /** `string.Trim()`: drops white space from both ends and nothing else. */
  function Trim(s: string): (r: string)
    ensures Trimmed(r)
    ensures LeadingSpace(s) + |r| <= |s|
    ensures r == s[LeadingSpace(s)..LeadingSpace(s) + |r|]
    ensures forall i :: 0 <= i < LeadingSpace(s) ==> IsWhiteSpace(s[i])
    ensures forall i :: LeadingSpace(s) + |r| <= i < |s| ==> IsWhiteSpace(s[i])
  {
    var t := TrimStart(s);
    var r := TrimEnd(t);
    assert |r| > 0 ==> r[0] == t[0];
    r
  }

  lemma {:induction false} TrimStartKeeps(s: string)
    requires |s| == 0 || !IsWhiteSpace(s[0])
    ensures TrimStart(s) == s
  {
  }

  lemma {:induction false} TrimEndKeeps(s: string)
    requires |s| == 0 || !IsWhiteSpace(s[|s| - 1])
    ensures TrimEnd(s) == s
  {
  }

  /** Trimming text that is already trimmed changes nothing. */
  lemma TrimOfTrimmed(s: string)
    requires Trimmed(s)
    ensures Trim(s) == s
  {
    TrimStartKeeps(s);
    TrimEndKeeps(s);
  }

  /**
    The last piece of `s.Split(sep)`: the longest suffix of `s` that holds no
    `sep`. It is all of `s` when `s` holds no `sep`, and empty when `s` ends
    with one.
  */
  function AfterLast(s: string, sep: char): (r: string)
    ensures sep !in r
    ensures |r| <= |s| && r == s[|s| - |r|..]
    ensures |r| < |s| ==> s[|s| - |r| - 1] == sep
  {
    if |s| == 0 then s
    else if s[|s| - 1] == sep then []
    else AfterLast(s[..|s| - 1], sep) + [s[|s| - 1]]
  }

  /** Whatever comes before the last separator is irrelevant to `AfterLast`. */
  lemma {:induction false} AfterLastOfJoin(p: string, sep: char, f: string)
    requires sep !in f
    ensures AfterLast(p + [sep] + f, sep) == f
  {
    var s := p + [sep] + f;
    if |f| > 0 {
      assert f[|f| - 1] in f;
      assert s[..|s| - 1] == p + [sep] + f[..|f| - 1];
      AfterLastOfJoin(p, sep, f[..|f| - 1]);
      assert f == f[..|f| - 1] + [f[|f| - 1]];
    }
  }

  /** Ordinal (code-unit by code-unit) comparison: `a` sorts no later than `b`. */
  predicate OrdinalLessEq(a: string, b: string) {
    |a| == 0 || (|b| > 0 && (a[0] < b[0] || (a[0] == b[0] && OrdinalLessEq(a[1..], b[1..]))))
  }

  predicate OrdinalLess(a: string, b: string) {
    OrdinalLessEq(a, b) && a != b
  }

  lemma {:induction false} OrdinalReflexive(a: string)
    ensures OrdinalLessEq(a, a)
  {
    if |a| > 0 {
      OrdinalReflexive(a[1..]);
    }
  }

  lemma {:induction false} OrdinalTotal(a: string, b: string)
    ensures OrdinalLessEq(a, b) || OrdinalLessEq(b, a)
  {
    if |a| > 0 && |b| > 0 && a[0] == b[0] {
      OrdinalTotal(a[1..], b[1..]);
    }
  }

  lemma {:induction false} OrdinalAntisymmetric(a: string, b: string)
    requires OrdinalLessEq(a, b) && OrdinalLessEq(b, a)
    ensures a == b
  {
    if |a| > 0 && |b| > 0 {
      OrdinalAntisymmetric(a[1..], b[1..]);
      assert a == [a[0]] + a[1..];
      assert b == [b[0]] + b[1..];
    }
  }

  lemma {:induction false} OrdinalTransitive(a: string, b: string, c: string)
    requires OrdinalLessEq(a, b) && OrdinalLessEq(b, c)
    ensures OrdinalLessEq(a, c)
  {
    if |a| > 0 && a[0] == b[0] && b[0] == c[0] {
      OrdinalTransitive(a[1..], b[1..], c[1..]);
    }
  }
}
